=== FILE: README.md ===
# Rental credit analysis — a Dafny model

This project models the decision engine of a tenant credit analysis for a property
rental (`regras_locacao.js`). The engine has three parts:

- `limparValor` reads a Brazilian monetary amount such as `"R$ 1.500,00"`.
- `calcularIdade` gives the tenant's age in whole years.
- `avaliarLocacao` runs the rule pipeline:
  - it extracts and sums the amounts;
  - it has two hard blocks, a credit restriction (SPC/Serasa) and minority;
  - the 30 % rule on committed income gives +50, +30 or +0;
  - the personal guarantor ("Fiador") rule gives +40 when the guarantor earns at
    least three times the charges;
  - a stable employment bond (`CLT` or `Publico`) gives a silent +10;
  - the final status follows the score: `APROVADO` from 80, `APROVADO COM
    RESSALVAS` from 50, `REPROVADO` below.

The verdict keeps its status, its internal score and its trail of details, and the
model proves facts about all three.

Modelling choices:

- Amounts are whole cents (`int`). Strings are `seq<char>`.
- The JavaScript string operations are modelled as written:
  - `replace` with a string pattern replaces the first occurrence only;
  - the global regular expression removes every `.`;
  - `trim` drops leading and trailing whitespace;
  - `includes` is a substring search.
- `parseFloat` is modelled on the numerals the amounts actually take: digits,
  optionally followed by `.` and one or two decimal digits.
- Ratios are exact rationals (`Quotients.Quotient`), compared with the thresholds
  exactly. A zero divisor gives an IEEE-style infinity or NaN, so the model behaves
  as JavaScript does there:
  - a NaN ratio fails every comparison and lands in the "risk" branches;
  - a positive amount over zero is +Infinity;
  - a negative amount over zero is −Infinity, which passes the 30 % rule.
- The current date is a parameter (`today`) instead of the ambient clock.
- Failures are explicit results (`Evaluation.EvalError`):
  - an amount that does not parse is `UnparsedAmount`;
  - a "Fiador" modality without a guarantor record is `MissingGuarantor`. The
    JavaScript crashes on this property access.

Modules, one per file:

- `wrappers.dfy` — `Option` and `Result`.
- `text.dfy` — `Text`: substring search, first-occurrence replacement, character
  removal, trimming, decimal digits.
- `money.dfy` — `Money`: `limparValor`, and a formatter used to state the round trip.
- `age.dfy` — `Age`: calendar dates, the age on a date, and the time-zone reading of
  birth dates.
- `quotients.dfy` — `Quotients`: exact ratios and their threshold comparisons.
- `evaluation.dfy` — `Evaluation`: the application record, the verdict and the
  pipeline.
- `scenarios.dfy` — `Scenarios`: the worked examples of `testes_locacao.js` stated
  as lemmas about the model.

Where the test suite and the code disagree, the model follows the code. Test case 4
is titled "approve with reservations", but the code scores that application
30 + 40 + 10 = 80, which is `APROVADO`. The test only checks the caution line, and
`Scenarios.IncomeAtLimitNoted` proves the code's outcome.

## Model

| member | source | states |
|---|---|---|
| Text.ContainsIff | regras_locacao.js:81 | `includes` holds exactly when the pattern occurs at some index of the text |
| Text.ReplaceFirst | regras_locacao.js:7 | `replace` with a string pattern rewrites at most one occurrence: the length is unchanged or changes by exactly one pattern-for-replacement swap; ReplaceFirstLeftmost and ReplaceFirstAbsent pin which one |
| Text.ReplaceFirstLeftmost | regras_locacao.js:7 | replacing a string pattern rewrites only its leftmost occurrence; text before and after it is kept |
| Text.ReplaceFirstAbsent | regras_locacao.js:7 | replacing a pattern that does not occur leaves the text unchanged |
| Text.RemoveChar | regras_locacao.js:7 | removing every `.` shortens or keeps the text, leaves no `.` behind, and changes nothing in a text without one; RemoveCharOfItself with RemoveCharAppend shows each `.` is dropped, never turned into another character |
| Text.RemoveCharOfItself | regras_locacao.js:7 | a text made of the removed character alone becomes empty |
| Text.RemoveCharAppend | regras_locacao.js:7 | the global removal distributes over concatenation |
| Text.DigitsAfterRemovingDots | regras_locacao.js:7 | a grouped numeral of digits and dots becomes a pure digit string |
| Text.TrimStart | regras_locacao.js:7 | the result is a suffix of the text, everything dropped is whitespace, and it does not start with whitespace |
| Text.TrimEnd | regras_locacao.js:7 | the result is a prefix of the text, everything dropped is whitespace, and it does not end with whitespace |
| Text.TrimUnchanged | regras_locacao.js:7 | a text that starts and ends with non-whitespace is unchanged by trimming |
| Text.DigitsValueAppend | regras_locacao.js:8 | the value of concatenated digit strings is the high part shifted by the low part's length plus the low part |
| Money.Clean | regras_locacao.js:7 | the text handed to parseFloat is no longer than the input and neither starts nor ends with white space; CleanGrouped and CleanWhole pin it on amounts |
| Money.LeadingDigits | regras_locacao.js:8 | the numeral prefix read by parseFloat is all digits and is followed by a non-digit or the end |
| Money.FractionCents | regras_locacao.js:8 | a decimal fraction that is read gives fewer than 100 cents; FractionOneDigit and FractionTwoDigits give its value |
| Money.FractionOneDigit | regras_locacao.js:8 | a point and one digit read as that many tenths of a real, i.e. ten cents per unit |
| Money.ParseCents | regras_locacao.js:8 | a numeral that parseFloat reads starts with a digit, and its whole reais are the value of its leading run of digits; ParseWhole, ParseOneDecimal and ParseTwoDecimals pin the cents |
| Money.ParseWhole | regras_locacao.js:8 | a plain digit string parses to its value in whole reais |
| Money.ParseOneDecimal | regras_locacao.js:8 | `w.d` parses to `w` reais and `d` tenths: `5.5` is 550 cents |
| Money.ParseTwoDecimals | regras_locacao.js:8 | `w.cc` parses to `w` reais and `cc` cents |
| Money.Normalize | regras_locacao.js:4-11 | a number is returned unchanged, a non-string non-number reads as 0, and a text that parses never reads as negative |
| Money.StripSymbol | regras_locacao.js:7 | removing `R$` from a formatted amount leaves exactly the space that followed it, and nothing happens without the symbol |
| Money.UngroupThousands | regras_locacao.js:7 | removing the thousands dots from a grouped numeral gives digits whose value is the number grouped |
| Money.CleanGrouped | regras_locacao.js:7 | the cleaning chain turns `[R$ ]g,cc` into the ungrouped digits of `g`, a point and `cc` |
| Money.NormalizeGrouped | regras_locacao.js:4-8 | any `[R$ ]g,cc` with a grouped integer part and two decimals reads as `g` reais (dots dropped) and `cc` cents |
| Money.CleanWhole | regras_locacao.js:7 | the cleaning chain turns `[R$ ]g`, an amount without a decimal part, into the ungrouped digits of `g` |
| Money.NormalizeGroupedWhole | regras_locacao.js:4-8 | any `[R$ ]g` with a grouped integer part and no decimal part reads as `g` reais (dots dropped) |
| Money.RoundTrip | testes_locacao.js:6-10 | formatting any non-negative amount of cents as `R$ 1.234,56` (with or without the symbol) and reading it back gives the same amount |
| Age.AgeOn | regras_locacao.js:16-27 | the age is an anniversary already reached on the given day, and the next one has not been reached |
| Age.AgeIsLastAnniversary | regras_locacao.js:19-25 | `n` has been reached and `n + 1` has not exactly when `n` is the age |
| Age.AgeOnBirthday | regras_locacao.js:23 | on the n-th birthday itself the age is already n |
| Age.AgeBeforeBirthday | regras_locacao.js:23-24 | in the n-th birthday's year, before its month and day, the age is n − 1 |
| Age.AgeFromNewYear | testes_locacao.js:12-19 | a tenant born on 1 January n years before today's year is n years old on any valid date |
| Age.LocalReading | regras_locacao.js:18 | a UTC-midnight date read with local getters is still a valid date, and it is the stated date exactly when the offset is at or east of UTC |
| Age.AgeAsWritten | regras_locacao.js:18-26 | at or east of UTC the code's age is the calendar age |
| Age.AgeAsWrittenAheadWestOfUtc | regras_locacao.js:18-25 | at UTC−3 a tenant turning 18 tomorrow is already 18 for the code, though the calendar age is 17 |
| Quotients.Divide | regras_locacao.js:66 | division gives an exact ratio for a non-zero divisor, and +Infinity, −Infinity or NaN for a zero divisor by the sign of the dividend |
| Quotients.ScaledAtMost | regras_locacao.js:66-72 | the percentage is at most k exactly when the charges are at most k % of a positive income (at least k % of a negative one); with zero income, exactly when the charges are negative |
| Quotients.QuotientAtLeast | regras_locacao.js:83-87 | the guarantor ratio is at least k exactly when the guarantor income is at least k times the charges, or when the charges are zero and the income is positive |
| Evaluation.SumAmounts | regras_locacao.js:34-40 | a sum of two amounts exists exactly when both amounts are read; UnblockedReadings and CommitmentOfReadings give its value, the sum of the two readings |
| Evaluation.Reject | regras_locacao.js:53-62 | a hard block gives `REPROVADO`, score 0 and the block's line as the only detail |
| Evaluation.Affordability | regras_locacao.js:66-77 | the 30 % stage keeps the status and earlier lines, adds the commitment line, then the compatible, limit or insufficient line exactly when the share is within 30 %, over 30 % and within 35 %, or over 35 %, with the matching points |
| Evaluation.GuarantorCheck | regras_locacao.js:80-93 | without "Fiador" nothing changes; with it, a missing guarantor or unreadable income fails, otherwise the coverage line and the sufficient line with 40 points, or the insufficient line, are appended |
| Evaluation.EmploymentBonus | regras_locacao.js:95-99 | the employment stage keeps the status and the trail and adds exactly the employment points: 10 for a bond containing "CLT" or "Publico", 0 otherwise |
| Evaluation.Decide | regras_locacao.js:101-108 | the final status is `APROVADO` exactly from 80 points, `APROVADO COM RESSALVAS` exactly from 50 to 79, `REPROVADO` exactly below 50, and never `EM ANALISE` |
| Evaluation.Evaluate | regras_locacao.js:32-111 | a verdict is never left `EM ANALISE`, its score is between 0 and 100, and its trail has 1, 2 or 4 lines |
| Evaluation.RestrictionRejectsFirst | regras_locacao.js:53-57 | a credit restriction rejects with score 0 and only the restriction line, whatever the other fields hold |
| Evaluation.MinorityRejectsNext | regras_locacao.js:59-63 | without a restriction, a tenant under 18 is rejected with score 0 and only the minority line |
| Evaluation.UnblockedReadings | regras_locacao.js:34-40 | a verdict for an unblocked application means all four amounts were read, the charges are rent plus condominium fee and the tenant income is monthly plus other income |
| Evaluation.AffordabilityLinesFirst | regras_locacao.js:66-77 | the first two lines of an unblocked verdict are the commitment percentage and the line matching its band |
| Evaluation.CommitmentOfReadings | regras_locacao.js:34-67 | the commitment line of an unblocked verdict is 100 × (rent + condominium fee) / (monthly income + other income), on the amounts as read |
| Evaluation.GuarantorLines | regras_locacao.js:80-93 | the trail has four lines exactly when the modality names a guarantor, and then lines 3 and 4 are the coverage and the sufficient or insufficient line matching the threefold rule |
| Evaluation.ScoreIsSumOfAwards | regras_locacao.js:69-99 | the score is the sum of the points of the three stages, drawn from {0, 30, 50}, {0, 40} and {0, 10} |
| Evaluation.StatusFollowsScore | regras_locacao.js:101-108 | every verdict's status matches its score's band |
| Evaluation.FailureCases | regras_locacao.js:34-93 | evaluation fails exactly when the application is unblocked and an amount it needs cannot be read or the guarantor is missing, and fails for a missing guarantor exactly in the last case |
| Evaluation.GuarantorIgnoredWithoutModality | regras_locacao.js:80-81 | without a guarantor modality, the guarantor record has no effect on the verdict |
| Evaluation.EmploymentLeavesNoTrace | regras_locacao.js:95-99 | the employment bond never changes whether a verdict is produced or its trail |
| Scenarios.ReadsZero | testes_locacao.js:31 | `"R$ 0,00"` reads as zero |
| Scenarios.ExactBoundariesPass | regras_locacao.js:66-89 | in exact arithmetic, charges of R$ 500,04 against R$ 1.666,80 of income are within 30 % and earn 50 points, and a guarantor earning R$ 1.500,12 covers them exactly three times (one cent less does not) |
| Scenarios.CltIsStable | testes_locacao.js:34 | `"CLT"` earns the employment bonus |
| Scenarios.AutonomoIsNotStable | testes_locacao.js:100 | `"Autonomo"` does not earn the employment bonus |
| Scenarios.FiadorNamesGuarantor | testes_locacao.js:40 | the modality `"Fiador"` triggers the guarantor stage |
| Scenarios.ProfileOutcome | testes_locacao.js:28-44 | the base application, with no restriction and a tenant of age, passes through the scoring stages to the final decision |
| Scenarios.SuiteCommitments | regras_locacao.js:66-77 | against R$ 1.000,00 of charges, incomes of R$ 4.000,00, 3.000,00 and 2.000,00 give 50 points, 30 points and 0 points with the matching lines |
| Scenarios.SufficientGuarantor | regras_locacao.js:83-89 | a guarantor earning at least R$ 3.000,00 against R$ 1.000,00 adds the coverage line, the sufficient line and 40 points |
| Scenarios.InsufficientGuarantor | regras_locacao.js:83-92 | a guarantor earning less than R$ 3.000,00 adds the coverage line and the insufficient line, and no points |
| Scenarios.BaseProfileApproved | testes_locacao.js:47-51 | the base application is `APROVADO` with 100 points and the four expected lines |
| Scenarios.RestrictedProfileRejected | testes_locacao.js:54-60 | with a restriction it is `REPROVADO` with only the restriction line |
| Scenarios.MinorProfileRejected | testes_locacao.js:63-70 | a tenant born on 1 January seventeen years ago is `REPROVADO` with only the minority line |
| Scenarios.IncomeAtLimitNoted | testes_locacao.js:73-80 | with R$ 3.000,00 of income the trail holds the limit line, and the verdict is `APROVADO` with 80 points |
| Scenarios.WeakGuarantorPenalized | testes_locacao.js:83-93 | with a guarantor earning R$ 2.000,00 the trail holds the guarantor-risk line, and the verdict is `APROVADO COM RESSALVAS` with 60 points |
| Scenarios.LowIncomeRejected | testes_locacao.js:96-105 | with R$ 2.000,00 of income, a weak guarantor and no stable bond, the verdict is `REPROVADO` with 0 points |
| Scenarios.SuiteTexts | testes_locacao.js:31-41 | the suite's texts as the formatter writes them (`"R$ 1.000,00"`, `"R$ 0,00"`, `"R$ 4.000,00"`, …) read as the amounts the scenario lemmas assume |
| Scenarios.SuiteBaseApproved | testes_locacao.js:47-51 | on the suite's own texts and `"CLT"`, test case 1 is `APROVADO` with 100 points |
| Scenarios.SuiteLimitApproved | testes_locacao.js:73-80 | on the suite's own texts with `"R$ 3.000,00"` of income, test case 4 holds the limit line and is `APROVADO` with 80 points |
| Scenarios.SuiteWeakGuarantor | testes_locacao.js:83-93 | on the suite's own texts with a guarantor earning `"R$ 2.000,00"`, test case 5 is `APROVADO COM RESSALVAS` with 60 points |
| Scenarios.SuiteLowIncomeRejected | testes_locacao.js:96-105 | on the suite's own texts with `"R$ 2.000,00"`, `"R$ 1.500,00"` and `"Autonomo"`, test case 6 is `REPROVADO` with 0 points |

## Left out

- Floating point: amounts are exact cents and ratios are exact rationals.
  - A detail line carries the exact ratio instead of its `toFixed(2)` rendering.
  - That ratio is kept as the unreduced fraction of the amounts (charges × 100 over
    income, guarantor income over charges). Two applications with the same
    percentage in different amounts get different `Commitment` values, where the
    JavaScript prints the same text.
  - Sub-cent amounts are not modelled.
- Evaluation.Affordability: the 30 % and 35 % bands are decided on the exact
  percentage, but the JavaScript rounds to binary64 twice, in the division and in the
  `* 100`. On an exact boundary this can put the JavaScript one band lower. For
  example, `"R$ 500,04"` of charges against `"R$ 1.666,80"` of income is exactly
  30 %. The model gives `IncomeCompatible` and 50 points, but JavaScript computes
  30.000000000000004 and gives the limit line and 30 points
  (`Scenarios.ExactBoundariesPass` states the model's side).
- Evaluation.GuarantorCheck: the threefold rule is decided on the exact ratio,
  while the JavaScript divides in binary64. On an exact boundary this can miss the
  40 points. For example, a guarantor earning `"R$ 1.500,12"` against `"R$ 500,04"`
  of charges covers exactly 3×. The model gives `GuarantorSufficient`, but
  JavaScript computes 2.9999999999999996 and gives the risk line and no points.
- Scenarios.ExactBoundariesPass: states the exact-arithmetic side of the two
  boundaries above. Binary64 JavaScript gives the limit line and 30 points, and the
  guarantor-risk line, on those same inputs.
- Money.Normalize: `parseFloat` is modelled only on the amount numerals (digits,
  then optionally `.` and one or two digits). Any other residue yields no value,
  which the pipeline reports as `UnparsedAmount` rather than a NaN or a prefix
  value. This covers empty text, signs, exponents, a third decimal and trailing
  characters.
- Evaluation.Evaluate: NaN amounts do not flow through the stages. An unreadable
  amount needed by a stage is an explicit failure instead. A "Fiador" modality with
  no guarantor record is the failure `MissingGuarantor` instead of a crash.
- JavaScript truthiness is not modelled:
  - the restriction flag is a `bool`;
  - the modality and the employment bond are strings;
  - the nested records (`imovel`, `locatario`, `analise_financeira`, `garantia`) are
    always present.
- Date handling:
  - birth dates are already calendar dates; parsing arbitrary strings (and invalid
    dates) is not modelled;
  - the clock is the `today` parameter;
  - `Evaluation.Evaluate`'s minority block uses `Age.AgeOn`, the calendar age on the
    stated birth date. The code's local-time reading of that date
    (`Age.AgeAsWritten`) is modelled separately; see "## Findings";
  - the time-zone offset is a fixed number of minutes, with no daylight saving.
- The Jasmine test harness is not modelled. Its cases appear as lemmas in
  `Scenarios`.
- Scenarios: the scenario lemmas take any texts that read as the suite's amounts
  (`Scenarios.ReadAs`). `Scenarios.SuiteTexts` builds the suite's texts with the
  formatter (`Money.Format(400000, true)` for `"R$ 4.000,00"`), and the `Suite…`
  lemmas apply the scenarios to them. The model does not prove that the formatter
  spells each amount with those exact characters. `Scenarios.ReadsZero` reads the
  `"R$ 0,00"` literal directly.

## Findings

| source | as written | input that shows it | evidently intended | confidence | as-written member | corrected member |
|---|---|---|---|---|---|---|
| regras_locacao.js:18-23 | a date-only ISO string is parsed as UTC midnight, then read with the local `getMonth`/`getDate` | birth date `"2008-10-10"`, evaluation on 9 October 2026 at a UTC−3 offset: the birth date is read as 9 October, so the age is 18 instead of 17 and the minority block does not fire | the calendar age on the stated birth date, in every time zone | not executed | Age.AgeAsWritten (counterexample in Age.AgeAsWrittenAheadWestOfUtc) | Age.AgeOn |

=== FILE: age.dfy ===
/**
 `calcularIdade`: the applicant's age in whole calendar years, with the evaluation
 date passed in instead of read from the clock.
 */
module Age {

  /** A calendar date of the proleptic Gregorian calendar; months run 1..12. */
  datatype Date = Date(year: int, month: int, day: int)

  predicate IsLeapYear(y: int)
  {
    y % 4 == 0 && (y % 100 != 0 || y % 400 == 0)
  }

  function DaysInMonth(y: int, m: int): (n: int)
    requires 1 <= m <= 12
    ensures 28 <= n <= 31
  {
    if m == 2 then (if IsLeapYear(y) then 29 else 28)
    else if m == 4 || m == 6 || m == 9 || m == 11 then 30
    else 31
  }

  /** A date that exists in the calendar. */
  predicate ValidDate(d: Date)
  {
    1 <= d.month <= 12 && 1 <= d.day <= DaysInMonth(d.year, d.month)
  }

  /** The day-of-year position of `a` is strictly before that of `b`. */
  predicate EarlierInYear(a: Date, b: Date)
  {
    a.month < b.month || (a.month == b.month && a.day < b.day)
  }

  /** Calendar order: `a` is the same day as `b` or an earlier one. */
  predicate OnOrBefore(a: Date, b: Date)
  {
    a.year < b.year || (a.year == b.year && !EarlierInYear(b, a))
  }

  /** The `n`-th anniversary of `birth` falls on or before `today`. */
  predicate AnniversaryReached(birth: Date, today: Date, n: int)
  {
    OnOrBefore(Date(birth.year + n, birth.month, birth.day), today)
  }

  /**
   `calcularIdade`: the year difference, less one when this year's birthday is still
   ahead. The result is the number of the last anniversary reached by `today`.
   */
  function AgeOn(birth: Date, today: Date): (age: int)
    ensures AnniversaryReached(birth, today, age)
    ensures !AnniversaryReached(birth, today, age + 1)
  {
    var years := today.year - birth.year;
    var m := today.month - birth.month;
    if m < 0 || (m == 0 && today.day < birth.day) then years - 1 else years
  }

  /** Anniversaries are reached in order: a later one reached means every earlier one is. */
  lemma AnniversariesInOrder(birth: Date, today: Date, n: int, k: int)
    requires n <= k && AnniversaryReached(birth, today, k)
    ensures AnniversaryReached(birth, today, n)
  {
  }

  /** The age is the only number whose anniversary is reached and whose successor's is not. */
  lemma AgeIsLastAnniversary(birth: Date, today: Date, n: int)
    ensures AnniversaryReached(birth, today, n) && !AnniversaryReached(birth, today, n + 1)
            <==> n == AgeOn(birth, today)
  {
    var a := AgeOn(birth, today);
    if AnniversaryReached(birth, today, n) && !AnniversaryReached(birth, today, n + 1) {
      if n < a {
        AnniversariesInOrder(birth, today, n + 1, a);
      } else if n > a {
        AnniversariesInOrder(birth, today, a + 1, n);
      }
    }
  }

  /** On the `n`-th birthday itself the age is `n`. */
  lemma AgeOnBirthday(birth: Date, n: int)
    ensures AgeOn(birth, Date(birth.year + n, birth.month, birth.day)) == n
  {
  }

  /** In the year of the `n`-th birthday but before it, the age is `n - 1`. */
  lemma AgeBeforeBirthday(birth: Date, today: Date, n: int)
    requires today.year == birth.year + n
    requires EarlierInYear(today, birth)
    ensures AgeOn(birth, today) == n - 1
  {
  }

  /** Born on 1 January `n` years before this year: the age is `n`, whatever today's date. */
  lemma AgeFromNewYear(today: Date, n: int)
    requires ValidDate(today)
    ensures AgeOn(Date(today.year - n, 1, 1), today) == n
  {
  }

  /* ---------------- The birth date as the original code reads it ---------------- */

  /** The calendar day before `d`. */
  function PreviousDay(d: Date): (r: Date)
    requires ValidDate(d)
    ensures ValidDate(r)
    ensures OnOrBefore(r, d) && r != d
  {
    if d.day > 1 then Date(d.year, d.month, d.day - 1)
    else if d.month > 1 then Date(d.year, d.month - 1, DaysInMonth(d.year, d.month - 1))
    else Date(d.year - 1, 12, 31)
  }

  /**
   The date the local-time getters report for a date-only ISO string ("1990-01-01"),
   which JavaScript reads as midnight UTC, on a machine whose clock is
   `offsetMinutes` ahead of UTC: west of Greenwich that instant is still the
   evening of the previous day.
   */
  function LocalReading(d: Date, offsetMinutes: int): (r: Date)
    requires ValidDate(d)
    requires -12 * 60 <= offsetMinutes <= 14 * 60
    ensures ValidDate(r)
    ensures offsetMinutes >= 0 <==> r == d
  {
    if offsetMinutes < 0 then PreviousDay(d) else d
  }

  /** `calcularIdade` as written: the birth date string parsed as UTC and read back in local time. */
  function AgeAsWritten(birth: Date, today: Date, offsetMinutes: int): (age: int)
    requires ValidDate(birth)
    requires -12 * 60 <= offsetMinutes <= 14 * 60
    ensures offsetMinutes >= 0 ==> age == AgeOn(birth, today)
  {
    AgeOn(LocalReading(birth, offsetMinutes), today)
  }

  /**
   At UTC-3 (Brasília time), on the day before an 18th birthday, the code as written
   already reports 18, while the calendar age is 17.
   */
  lemma AgeAsWrittenAheadWestOfUtc()
    ensures AgeOn(Date(2008, 10, 10), Date(2026, 10, 9)) == 17
    ensures AgeAsWritten(Date(2008, 10, 10), Date(2026, 10, 9), -180) == 18
  {
  }
}

=== FILE: evaluation.dfy ===
/**
 `avaliarLocacao`: the decision pipeline that turns a rental application into a
 verdict. Hard blocks (credit restriction, then minority) end the evaluation at
 once; otherwise points are awarded for affordability, for a guarantor and,
 silently, for stable employment, and the final status follows from the score.
 */
module Evaluation {
  import opened Wrappers
  import opened Text
  import opened Money
  import opened Age
  import opened Quotients

  /* ---------------- The application record ---------------- */

  /** `imovel`: the rented property. */
  datatype Property = Property(rent: MonetaryValue, condoFee: MonetaryValue)

  /** `locatario`: the tenant. */
  datatype Tenant = Tenant(birthDate: Date)

  /** `analise_financeira`: the tenant's finances. */
  datatype Finances = Finances(
    monthlyIncome: MonetaryValue,
    otherIncome: MonetaryValue,
    hasRestriction: bool,        // a record in the SPC/Serasa credit bureaus
    employment: string)          // `vinculo_empregaticio`, e.g. "CLT", "Autonomo"

  /** `fiador`: a personal guarantor. */
  datatype Guarantor = Guarantor(income: MonetaryValue)

  /** `garantia`: the guarantee offered; the guarantor may be absent. */
  datatype Guarantee = Guarantee(modality: string, guarantor: Option<Guarantor>)

  datatype Application = Application(
    property: Property,
    tenant: Tenant,
    finances: Finances,
    guarantee: Guarantee)

  /* ---------------- The verdict ---------------- */

  /** "EM ANALISE", "APROVADO", "APROVADO COM RESSALVAS", "REPROVADO". */
  datatype Status = EmAnalise | Aprovado | AprovadoComRessalvas | Reprovado

  /** One line of the audit trail `detalhes`, in the order the rules produce them. */
  datatype Detail =
    | RestrictionRejection            // rejected: credit restriction
    | MinorRejection                  // rejected: under age
    | Commitment(percent: Quotient)   // share of income taken by the charges, in percent
    | IncomeCompatible                // commitment within 30 %
    | IncomeAtLimit                   // commitment between 30 % and 35 %
    | IncomeInsufficient              // commitment above 35 %
    | GuarantorCoverage(ratio: Quotient)  // guarantor income over the charges
    | GuarantorSufficient             // guarantor covers at least three times the charges
    | GuarantorInsufficient           // guarantor covers less than that

  /** `parecer`: status, internal score and audit trail. */
  datatype Verdict = Verdict(status: Status, score: int, details: seq<Detail>)

  /** Why no verdict is produced. */
  datatype EvalError =
    | UnparsedAmount      // a monetary text outside the modelled grammar
    | MissingGuarantor    // the modality names a guarantor but `fiador` is absent

  /** The verdict every evaluation starts from. */
  const Pending := Verdict(EmAnalise, 0, [])

  /* ---------------- The rules, in integer terms ---------------- */

  /**
   The charges take at most `pct` percent of the income, as JavaScript's
   `(charges / income) * 100 <= pct` decides it: on cents by cross-multiplication,
   turned round for a negative income, and for a zero income true only of negative
   charges (-Infinity).
   */
  predicate WithinShare(charges: int, income: int, pct: int)
  {
    || (income > 0 && 100 * charges <= pct * income)
    || (income < 0 && 100 * charges >= pct * income)
    || (income == 0 && charges < 0)
  }

  /**
   The guarantor's income is at least three times the charges, as
   `guarantorIncome / charges >= 3` decides it; with zero charges only a positive
   income (+Infinity) passes.
   */
  predicate CoversThreeTimes(guarantorIncome: int, charges: int)
  {
    || (charges > 0 && guarantorIncome >= 3 * charges)
    || (charges < 0 && guarantorIncome <= 3 * charges)
    || (charges == 0 && guarantorIncome > 0)
  }

  /** The modality calls for a personal guarantor. */
  predicate NamesGuarantor(g: Guarantee)
  {
    Contains(g.modality, "Fiador")
  }

  /** Formal private-sector or public-sector employment. */
  predicate StableEmployment(employment: string)
  {
    Contains(employment, "CLT") || Contains(employment, "Publico")
  }

  /** The points the affordability rule awards. */
  function SharePoints(charges: int, income: int): int
  {
    if WithinShare(charges, income, 30) then 50
    else if WithinShare(charges, income, 35) then 30
    else 0
  }

  /** The points the guarantor rule awards. */
  function GuarantorPoints(g: Guarantee, charges: int): int
  {
    if && NamesGuarantor(g) && g.guarantor.Some? && Normalize(g.guarantor.value.income).Some?
       && CoversThreeTimes(Normalize(g.guarantor.value.income).value, charges)
    then 40 else 0
  }

  /** The points the employment rule awards. */
  function EmploymentPoints(employment: string): int
  {
    if StableEmployment(employment) then 10 else 0
  }

  /* ---------------- Extraction ---------------- */

  /** The sum of two monetary fields, when both are in the modelled grammar. */
  function SumAmounts(a: MonetaryValue, b: MonetaryValue): (r: Option<int>)
    ensures r.Some? <==> Normalize(a).Some? && Normalize(b).Some?
  {
    if Normalize(a).Some? && Normalize(b).Some? then Some(Normalize(a).value + Normalize(b).value)
    else None
  }

  /** `totalEncargos`: rent plus condominium fee. */
  function TotalCharges(p: Property): Option<int>
  {
    SumAmounts(p.rent, p.condoFee)
  }

  /** `rendaTotalLocatario`: proven monthly income plus other income. */
  function TenantIncome(f: Finances): Option<int>
  {
    SumAmounts(f.monthlyIncome, f.otherIncome)
  }

  /** A hard block ends the evaluation before any points are given. */
  predicate Blocked(app: Application, today: Date)
  {
    app.finances.hasRestriction || AgeOn(app.tenant.birthDate, today) < 18
  }

  /* ---------------- The stages ---------------- */

  /** `parecer.detalhes.push(d)`. */
  function Note(v: Verdict, d: Detail): Verdict
  {
    v.(details := v.details + [d])
  }

  /** `parecer.score_interno += p`. */
  function Award(v: Verdict, p: int): Verdict
  {
    v.(score := v.score + p)
  }

  /** A hard block: rejected, with `reason` as the only line of the trail. */
  function Reject(reason: Detail): (r: Verdict)
    ensures r.status == Reprovado && r.score == 0 && r.details == [reason]
  {
    Note(Pending.(status := Reprovado), reason)
  }

  /**
   The 30 % rule: report the commitment percentage, then award 50 points within
   30 %, 30 points within 35 %, none above.
   */
  function Affordability(v: Verdict, charges: int, income: int): (r: Verdict)
    ensures r.status == v.status
    ensures r.score == v.score + SharePoints(charges, income)
    ensures |r.details| == |v.details| + 2 && r.details[..|v.details|] == v.details
    ensures r.details[|v.details|] == Commitment(Scale(Divide(charges, income), 100))
    ensures r.details[|v.details| + 1] == IncomeCompatible <==> WithinShare(charges, income, 30)
    ensures r.details[|v.details| + 1] == IncomeAtLimit
        <==> !WithinShare(charges, income, 30) && WithinShare(charges, income, 35)
    ensures r.details[|v.details| + 1] == IncomeInsufficient <==> !WithinShare(charges, income, 35)
  {
    ScaledAtMost(charges, income, 100, 30);
    ScaledAtMost(charges, income, 100, 35);
    var percent := Scale(Divide(charges, income), 100);
    var reported := Note(v, Commitment(percent));
    if AtMost(percent, 30) then Note(Award(reported, 50), IncomeCompatible)
    else if AtMost(percent, 35) then Note(Award(reported, 30), IncomeAtLimit)
    else Note(reported, IncomeInsufficient)
  }

  /**
   The guarantor rule, run only when the modality names a guarantor: report the
   coverage ratio, then award 40 points when it is at least 3.
   */
  function GuarantorCheck(v: Verdict, g: Guarantee, charges: int): (r: Result<Verdict, EvalError>)
    ensures !NamesGuarantor(g) ==> r == Success(v)
    ensures NamesGuarantor(g) && g.guarantor.None? ==> r == Failure(MissingGuarantor)
    ensures NamesGuarantor(g) && g.guarantor.Some? && Normalize(g.guarantor.value.income).None?
            ==> r == Failure(UnparsedAmount)
    ensures NamesGuarantor(g) && g.guarantor.Some? && Normalize(g.guarantor.value.income).Some? ==>
              var income := Normalize(g.guarantor.value.income).value;
              && r.Success?
              && r.value.status == v.status
              && r.value.score == v.score + (if CoversThreeTimes(income, charges) then 40 else 0)
              && r.value.details == v.details + [GuarantorCoverage(Divide(income, charges)),
                   if CoversThreeTimes(income, charges) then GuarantorSufficient else GuarantorInsufficient]
  {
    if !NamesGuarantor(g) then Success(v)
    else
      match g.guarantor
      case None => Failure(MissingGuarantor)
      case Some(guarantor) =>
        match Normalize(guarantor.income)
        case None => Failure(UnparsedAmount)
        case Some(income) =>
          QuotientAtLeast(income, charges, 3);
          var ratio := Divide(income, charges);
          var reported := Note(v, GuarantorCoverage(ratio));
          if AtLeast(ratio, 3) then Success(Note(Award(reported, 40), GuarantorSufficient))
          else Success(Note(reported, GuarantorInsufficient))
  }

  /** The silent employment bonus: 10 points, no line in the trail. */
  function EmploymentBonus(v: Verdict, employment: string): (r: Verdict)
    ensures r.status == v.status && r.details == v.details
    ensures r.score == v.score + EmploymentPoints(employment)
  {
    if StableEmployment(employment) then Award(v, 10) else v
  }

  /** The final status, from the score alone. */
  function Decide(v: Verdict): (r: Verdict)
    ensures r.score == v.score && r.details == v.details
    ensures r.status != EmAnalise
    ensures r.status == Aprovado <==> v.score >= 80
    ensures r.status == AprovadoComRessalvas <==> 50 <= v.score < 80
    ensures r.status == Reprovado <==> v.score < 50
  {
    if v.score >= 80 then v.(status := Aprovado)
    else if v.score >= 50 then v.(status := AprovadoComRessalvas)
    else v.(status := Reprovado)
  }

  /* ---------------- The pipeline ---------------- */

  /**
   `avaliarLocacao`, with the evaluation date passed in. A failure stands for the
   cases in which the original code would go on with NaN from unparsed text, or
   crash on a missing guarantor.
   */
  function Evaluate(app: Application, today: Date): (r: Result<Verdict, EvalError>)
    ensures r.Success? ==> r.value.status != EmAnalise
    ensures r.Success? ==> 0 <= r.value.score <= 100
    ensures r.Success? ==> |r.value.details| in {1, 2, 4}
  {
    if app.finances.hasRestriction then Success(Reject(RestrictionRejection))
    else if AgeOn(app.tenant.birthDate, today) < 18 then Success(Reject(MinorRejection))
    else
      match (TotalCharges(app.property), TenantIncome(app.finances))
      case (Some(charges), Some(income)) =>
        var afforded := Affordability(Pending, charges, income);
        (match GuarantorCheck(afforded, app.guarantee, charges)
         case Failure(e) => Failure(e)
         case Success(guaranteed) => Success(Decide(EmploymentBonus(guaranteed, app.finances.employment))))
      case _ => Failure(UnparsedAmount)
  }

  /* ---------------- Properties of the pipeline ---------------- */

  /** A credit restriction rejects with score 0 and its own line alone, whatever else the record says. */
  lemma RestrictionRejectsFirst(app: Application, today: Date)
    requires app.finances.hasRestriction
    ensures Evaluate(app, today) == Success(Verdict(Reprovado, 0, [RestrictionRejection]))
  {
  }

  /** Without a restriction, an applicant under 18 is rejected with score 0 and the minority line alone. */
  lemma MinorityRejectsNext(app: Application, today: Date)
    requires !app.finances.hasRestriction
    requires AgeOn(app.tenant.birthDate, today) < 18
    ensures Evaluate(app, today) == Success(Verdict(Reprovado, 0, [MinorRejection]))
  {
  }

  /**
   Without a hard block, a verdict is produced exactly when the amounts are read
   and the guarantor rule succeeds; it is then the decided outcome of the stages.
   */
  lemma UnblockedStages(app: Application, today: Date, charges: int, income: int)
    requires !Blocked(app, today)
    requires TotalCharges(app.property) == Some(charges) && TenantIncome(app.finances) == Some(income)
    ensures
      var checked := GuarantorCheck(Affordability(Pending, charges, income), app.guarantee, charges);
      && (Evaluate(app, today).Success? <==> checked.Success?)
      && (checked.Success? ==>
            Evaluate(app, today).value == Decide(EmploymentBonus(checked.value, app.finances.employment)))
  {
  }

  /** A verdict for an unblocked application means both sums were read. */
  lemma UnblockedReadings(app: Application, today: Date)
    requires !Blocked(app, today)
    requires Evaluate(app, today).Success?
    ensures Normalize(app.property.rent).Some? && Normalize(app.property.condoFee).Some?
    ensures Normalize(app.finances.monthlyIncome).Some? && Normalize(app.finances.otherIncome).Some?
    ensures TotalCharges(app.property)
         == Some(Normalize(app.property.rent).value + Normalize(app.property.condoFee).value)
    ensures TenantIncome(app.finances)
         == Some(Normalize(app.finances.monthlyIncome).value + Normalize(app.finances.otherIncome).value)
  {
    assert TotalCharges(app.property).Some? && TenantIncome(app.finances).Some?;
    SumOfReadings(app.property.rent, app.property.condoFee);
    SumOfReadings(app.finances.monthlyIncome, app.finances.otherIncome);
  }

  /** A sum that exists adds the two readings. */
  lemma SumOfReadings(a: MonetaryValue, b: MonetaryValue)
    requires SumAmounts(a, b).Some?
    ensures Normalize(a).Some? && Normalize(b).Some?
    ensures SumAmounts(a, b) == Some(Normalize(a).value + Normalize(b).value)
  {
  }

  /**
   Without a hard block, the trail opens with the commitment percentage, followed
   by the one affordability message whose band the commitment falls in.
   */
  lemma AffordabilityLinesFirst(app: Application, today: Date)
    requires !Blocked(app, today)
    requires Evaluate(app, today).Success?
    ensures TotalCharges(app.property).Some? && TenantIncome(app.finances).Some?
    ensures
      var v := Evaluate(app, today).value;
      var charges := TotalCharges(app.property).value;
      var income := TenantIncome(app.finances).value;
      && |v.details| >= 2
      && v.details[0] == Commitment(Scale(Divide(charges, income), 100))
      && (v.details[1] == IncomeCompatible <==> WithinShare(charges, income, 30))
      && (v.details[1] == IncomeAtLimit <==>
            !WithinShare(charges, income, 30) && WithinShare(charges, income, 35))
      && (v.details[1] == IncomeInsufficient <==> !WithinShare(charges, income, 35))
  {
    UnblockedReadings(app, today);
    var charges := TotalCharges(app.property).value;
    var income := TenantIncome(app.finances).value;
    UnblockedStages(app, today, charges, income);
    var afforded := Affordability(Pending, charges, income);
    var checked := GuarantorCheck(afforded, app.guarantee, charges);
    assert |afforded.details| == 2 by { assert |Pending.details| == 0; }
    var v := Evaluate(app, today).value;
    assert v.details == checked.value.details;
    if NamesGuarantor(app.guarantee) {
      assert checked.value.details[..2] == afforded.details;
    } else {
      assert checked.value == afforded;
    }
    assert v.details[0] == afforded.details[0] && v.details[1] == afforded.details[1];
  }

  /**
   The first line reports rent plus condominium fee over monthly plus other income:
   the two sums are of the amounts as read, not either amount alone.
   */
  lemma CommitmentOfReadings(app: Application, today: Date)
    requires !Blocked(app, today)
    requires Evaluate(app, today).Success?
    ensures Normalize(app.property.rent).Some? && Normalize(app.property.condoFee).Some?
    ensures Normalize(app.finances.monthlyIncome).Some? && Normalize(app.finances.otherIncome).Some?
    ensures
      var charges := Normalize(app.property.rent).value + Normalize(app.property.condoFee).value;
      var income := Normalize(app.finances.monthlyIncome).value + Normalize(app.finances.otherIncome).value;
      Evaluate(app, today).value.details[0] == Commitment(Scale(Divide(charges, income), 100))
  {
    UnblockedReadings(app, today);
    AffordabilityLinesFirst(app, today);
  }

  /**
   The guarantor rule adds exactly two lines — the coverage ratio, then approval or
   risk — when the modality names a guarantor, and none otherwise.
   */
  lemma GuarantorLines(app: Application, today: Date)
    requires !Blocked(app, today)
    requires Evaluate(app, today).Success?
    ensures |Evaluate(app, today).value.details| == (if NamesGuarantor(app.guarantee) then 4 else 2)
    ensures NamesGuarantor(app.guarantee) ==>
      && app.guarantee.guarantor.Some?
      && Normalize(app.guarantee.guarantor.value.income).Some?
      && TotalCharges(app.property).Some?
      && var v := Evaluate(app, today).value;
         var income := Normalize(app.guarantee.guarantor.value.income).value;
         var charges := TotalCharges(app.property).value;
         && v.details[2] == GuarantorCoverage(Divide(income, charges))
         && (v.details[3] == GuarantorSufficient <==> CoversThreeTimes(income, charges))
         && (v.details[3] == GuarantorInsufficient <==> !CoversThreeTimes(income, charges))
  {
    UnblockedReadings(app, today);
    var charges := TotalCharges(app.property).value;
    var income := TenantIncome(app.finances).value;
    UnblockedStages(app, today, charges, income);
    var afforded := Affordability(Pending, charges, income);
    assert |afforded.details| == 2;
    var checked := GuarantorCheck(afforded, app.guarantee, charges);
    assert Evaluate(app, today).value.details == checked.value.details;
  }

  /**
   The score is the sum of the three awards — affordability 0, 30 or 50, guarantor
   0 or 40, employment 0 or 10 — so nothing is ever deducted and it stays within 0..100.
   */
  lemma ScoreIsSumOfAwards(app: Application, today: Date)
    requires !Blocked(app, today)
    requires Evaluate(app, today).Success?
    ensures TotalCharges(app.property).Some? && TenantIncome(app.finances).Some?
    ensures
      var charges := TotalCharges(app.property).value;
      var income := TenantIncome(app.finances).value;
      && Evaluate(app, today).value.score
           == SharePoints(charges, income) + GuarantorPoints(app.guarantee, charges)
              + EmploymentPoints(app.finances.employment)
      && SharePoints(charges, income) in {0, 30, 50}
      && GuarantorPoints(app.guarantee, charges) in {0, 40}
      && EmploymentPoints(app.finances.employment) in {0, 10}
  {
  }

  /**
   Every verdict, blocked or not, has the status its score calls for: 80 and above
   approved, 50 to 79 approved with reservations, below 50 rejected.
   */
  lemma StatusFollowsScore(app: Application, today: Date)
    requires Evaluate(app, today).Success?
    ensures
      var v := Evaluate(app, today).value;
      && (v.status == Aprovado <==> v.score >= 80)
      && (v.status == AprovadoComRessalvas <==> 50 <= v.score < 80)
      && (v.status == Reprovado <==> v.score < 50)
  {
  }

  /**
   No verdict is produced exactly when no hard block fires and an amount the rules
   read is outside the modelled grammar, or a guarantor is called for but absent.
   */
  lemma FailureCases(app: Application, today: Date)
    ensures Evaluate(app, today).Failure? <==>
      && !Blocked(app, today)
      && (|| TotalCharges(app.property).None?
          || TenantIncome(app.finances).None?
          || (NamesGuarantor(app.guarantee) &&
                (app.guarantee.guarantor.None? || Normalize(app.guarantee.guarantor.value.income).None?)))
    ensures Evaluate(app, today) == Failure(MissingGuarantor) <==>
      && !Blocked(app, today)
      && TotalCharges(app.property).Some? && TenantIncome(app.finances).Some?
      && NamesGuarantor(app.guarantee) && app.guarantee.guarantor.None?
  {
  }

  /** Unless the modality names a guarantor, the guarantor's data play no part. */
  lemma GuarantorIgnoredWithoutModality(app: Application, today: Date, other: Option<Guarantor>)
    requires !NamesGuarantor(app.guarantee)
    ensures Evaluate(app.(guarantee := app.guarantee.(guarantor := other)), today) == Evaluate(app, today)
  {
  }

  /** The employment bonus changes at most the score and status, never the trail. */
  lemma EmploymentLeavesNoTrace(app: Application, today: Date, employment: string)
    ensures
      var app' := app.(finances := app.finances.(employment := employment));
      && (Evaluate(app', today).Success? <==> Evaluate(app, today).Success?)
      && (Evaluate(app, today).Success? ==>
            Evaluate(app', today).value.details == Evaluate(app, today).value.details)
  {
  }
}

=== FILE: money.dfy ===
/**
 The monetary normaliser `limparValor` and a formatter for the Brazilian notation
 it reads ("R$ 1.500,00": '.' groups thousands, ',' separates the cents). Amounts
 are whole numbers of cents.
 */
module Money {
  import opened Wrappers
  import opened Text

  /** A monetary field of the application record, as JavaScript hands it over. */
  datatype MonetaryValue =
    | Num(cents: int)      // a JavaScript number, here a whole number of cents
    | Str(text: string)    // text such as "R$ 1.500,00" or "320,00"
    | Other                // absent, null, a boolean, an object: anything else

  /* ---------------- Normalising ---------------- */

  /**
   The text `limparValor` hands to `parseFloat`: the first "R$" removed, every '.'
   removed, the first ',' turned into '.', then trimmed.
   */
  function Clean(s: string): (r: string)
    ensures |r| <= |s|
    ensures |r| > 0 ==> !IsWhitespace(r[0]) && !IsWhitespace(r[|r| - 1])
  {
    Trim(ReplaceFirst(RemoveChar(ReplaceFirst(s, "R$", ""), '.'), ",", "."))
  }

  /** Length of the run of decimal digits at the start of `s`. */
  function LeadingDigits(s: string): (k: nat)
    ensures k <= |s|
    ensures AllDigits(s[..k])
    ensures k < |s| ==> !IsDigit(s[k])
  {
    if |s| == 0 || !IsDigit(s[0]) then 0
    else
      var k := 1 + LeadingDigits(s[1..]);
      assert s[..k] == [s[0]] + s[1..][..k - 1];
      k
  }

  /**
   The value in cents of what follows the whole units: nothing, or a '.' and one
   or two digits. Anything else is outside the modelled grammar.
   */
  function FractionCents(rest: string): (r: Option<nat>)
    ensures r.Some? ==> r.value < 100
  {
    if |rest| == 0 then Some(0)
    else if |rest| == 2 && rest[0] == '.' && IsDigit(rest[1]) then
      Some(10 * DigitValue(rest[1]))
    else if |rest| == 3 && rest[0] == '.' && IsDigit(rest[1]) && IsDigit(rest[2]) then
      Some(10 * DigitValue(rest[1]) + DigitValue(rest[2]))
    else None
  }

  /**
   `parseFloat` on the decimal numerals the normaliser produces from well-formed
   amounts — digits, optionally a '.' and one or two digits — as a number of cents.
   Any other text is outside the modelled grammar and gives None.
   */
  function ParseCents(t: string): (r: Option<nat>)
    ensures r.Some? ==> 0 < |t| && IsDigit(t[0])
    ensures r.Some? ==> r.value / 100 == DigitsValue(t[..LeadingDigits(t)])
  {
    var k := LeadingDigits(t);
    if k == 0 then None
    else
      match FractionCents(t[k..])
      case Some(frac) =>
        assert (DigitsValue(t[..k]) * 100 + frac) / 100 == DigitsValue(t[..k]);
        Some(DigitsValue(t[..k]) * 100 + frac)
      case None => None
  }

  /** The leading run of digits of a numeral followed by a non-digit is that numeral. */
  lemma {:induction false} LeadingDigitsOf(w: string, rest: string)
    requires AllDigits(w)
    requires 0 < |rest| && !IsDigit(rest[0])
    ensures LeadingDigits(w + rest) == |w|
    decreases |w|
  {
    if 0 < |w| {
      assert (w + rest)[1..] == w[1..] + rest;
      LeadingDigitsOf(w[1..], rest);
    }
  }

  /** A numeral is its own leading run of digits. */
  lemma {:induction false} LeadingDigitsAll(w: string)
    requires AllDigits(w)
    ensures LeadingDigits(w) == |w|
    decreases |w|
  {
    if 0 < |w| {
      LeadingDigitsAll(w[1..]);
    }
  }

  /** A numeral with no decimal places is read as that many whole units. */
  lemma ParseWhole(w: string)
    requires 0 < |w| && AllDigits(w)
    ensures ParseCents(w) == Some(DigitsValue(w) * 100)
  {
    LeadingDigitsAll(w);
    assert w[..|w|] == w;
    assert w[|w|..] == "";
  }

  /** Two decimal places after the point, read as cents. */
  lemma FractionTwoDigits(cc: string)
    requires |cc| == 2 && AllDigits(cc)
    ensures FractionCents("." + cc) == Some(DigitsValue(cc))
  {
    var rest := "." + cc;
    assert rest[1] == cc[0] && rest[2] == cc[1];
    assert cc[..1][..0] == "";
    assert DigitsValue(cc[..1]) == DigitValue(cc[0]);
    assert DigitsValue(cc) == 10 * DigitValue(cc[0]) + DigitValue(cc[1]);
  }

  /** A point and one digit read as that many tenths: ".5" is 50 cents. */
  lemma FractionOneDigit(d: string)
    requires |d| == 1 && AllDigits(d)
    ensures FractionCents("." + d) == Some(10 * DigitsValue(d))
  {
    assert ("." + d)[1] == d[0];
    assert d[..0] == "";
  }

  /** `w.d` parses to `w` reais and `d` tenths: "5.5" is 550 cents. */
  lemma ParseOneDecimal(w: string, d: string)
    requires 0 < |w| && AllDigits(w)
    requires |d| == 1 && AllDigits(d)
    ensures ParseCents(w + "." + d) == Some(DigitsValue(w) * 100 + 10 * DigitsValue(d))
  {
    NumeralThenFraction(w + "." + d, w, d);
    FractionOneDigit(d);
    ParseAt(w + "." + d, |w|);
  }

  /** A numeral with two decimal places is read to the cent. */
  lemma ParseTwoDecimals(w: string, cc: string)
    requires 0 < |w| && AllDigits(w)
    requires |cc| == 2 && AllDigits(cc)
    ensures ParseCents(w + "." + cc) == Some(DigitsValue(w) * 100 + DigitsValue(cc))
  {
    var t := w + "." + cc;
    NumeralThenFraction(t, w, cc);
    FractionTwoDigits(cc);
    ParseAt(t, |w|);
  }

  /** In `w.cc` the leading numeral is `w` and the fraction `.cc`. */
  lemma NumeralThenFraction(t: string, w: string, cc: string)
    requires AllDigits(w) && t == w + "." + cc
    ensures LeadingDigits(t) == |w| && t[..|w|] == w && t[|w|..] == "." + cc
  {
    assert t == w + ("." + cc);
    LeadingDigitsOf(w, "." + cc);
  }

  /** Text is read as its leading numeral followed by the fraction after it. */
  lemma ParseAt(t: string, k: nat)
    requires 0 < k && LeadingDigits(t) == k && FractionCents(t[k..]).Some?
    ensures ParseCents(t) == Some(DigitsValue(t[..k]) * 100 + FractionCents(t[k..]).value)
  {
  }

  /**
   `limparValor`: a number passes through unchanged, text is cleaned and parsed,
   anything else becomes 0. None marks text outside the modelled grammar.
   */
  function Normalize(v: MonetaryValue): (r: Option<int>)
    ensures v.Num? ==> r == Some(v.cents)
    ensures v.Other? ==> r == Some(0)
    ensures v.Str? && r.Some? ==> r.value >= 0
  {
    match v
    case Num(c) => Some(c)
    case Str(s) =>
      (match ParseCents(Clean(s))
       case Some(c) => Some(c)
       case None => None)
    case Other => Some(0)
  }

  /* ---------------- Formatting ---------------- */

  /** The shortest decimal numeral of `n`. */
  function Numeral(n: nat): (s: string)
    ensures 0 < |s| && AllDigits(s) && DigitsValue(s) == n
  {
    if n < 10 then [DigitChar(n)]
    else
      var s := Numeral(n / 10) + [DigitChar(n % 10)];
      assert s[..|s| - 1] == Numeral(n / 10);
      s
  }

  /** `k` written with exactly `width` digits, zero-padded. */
  function PaddedNumeral(k: nat, width: nat): (s: string)
    requires k < Pow10(width)
    ensures |s| == width && AllDigits(s) && DigitsValue(s) == k
  {
    if width == 0 then ""
    else
      assert k / 10 < Pow10(width - 1) by {
        DivideByTen(k, Pow10(width - 1));
      }
      var s := PaddedNumeral(k / 10, width - 1) + [DigitChar(k % 10)];
      assert s[..|s| - 1] == PaddedNumeral(k / 10, width - 1);
      s
  }

  /** Dropping the last digit of a number below `10 * p` leaves a number below `p`. */
  lemma DivideByTen(k: nat, p: nat)
    requires k < 10 * p
    ensures k / 10 < p
  {
  }

  /** `n` in digits with a '.' between each group of three, as in "10.000". */
  function GroupThousands(n: nat): (s: string)
    ensures 0 < |s| && IsDigit(s[0]) && IsDigit(s[|s| - 1])
    ensures forall i :: 0 <= i < |s| ==> IsDigit(s[i]) || s[i] == '.'
  {
    if n < 1000 then Numeral(n)
    else GroupThousands(n / 1000) + "." + PaddedNumeral(n % 1000, 3)
  }

  /** The currency symbol and its blank, when written. */
  function Symbol(withSymbol: bool): string
  {
    if withSymbol then "R$ " else ""
  }

  /** A non-negative amount of cents as "R$ d.ddd,cc" (or "d.ddd,cc" without the symbol). */
  function Format(cents: nat, withSymbol: bool): string
  {
    Symbol(withSymbol) + GroupThousands(cents / 100) + "," + PaddedNumeral(cents % 100, 2)
  }

  /* ---------------- Round trip ---------------- */

  /** Dropping the '.' of `high.low`, where `low` is all digits. */
  lemma DropSeparator(high: string, low: string)
    requires AllDigits(low)
    ensures RemoveChar(high + "." + low, '.') == RemoveChar(high, '.') + low
  {
    var kept := RemoveChar(high, '.');
    assert RemoveChar(high + ".", '.') == kept by {
      RemoveCharAppend(high, ".", '.');
      RemoveCharOfItself('.');
    }
    assert RemoveChar(low, '.') == low by { RemoveCharAbsent(low, '.'); }
    RemoveCharAppend(high + ".", low, '.');
  }

  /** Dropping the thousands separators leaves the plain numeral of `n`. */
  lemma {:induction false} UngroupThousands(n: nat)
    ensures 0 < |RemoveChar(GroupThousands(n), '.')|
    ensures AllDigits(RemoveChar(GroupThousands(n), '.'))
    ensures DigitsValue(RemoveChar(GroupThousands(n), '.')) == n
  {
    if n < 1000 {
      RemoveCharAbsent(Numeral(n), '.');
    } else {
      var high := GroupThousands(n / 1000);
      var low := PaddedNumeral(n % 1000, 3);
      var d := RemoveChar(high, '.');
      UngroupThousands(n / 1000);
      DropSeparator(high, low);
      assert RemoveChar(GroupThousands(n), '.') == d + low;
      DigitsValueAppend(d, low);
      assert Pow10(3) == 1000;
    }
  }

  /** Removing the first "R$" from text that starts with "R$ " leaves the blank and the rest. */
  lemma StripLeadingSymbol(body: string)
    ensures ReplaceFirst("R$ " + body, "R$", "") == " " + body
  {
    var s := "R$ " + body;
    assert s[..2] == "R$";
    assert s[2..] == " " + body;
  }

  /** Removing the first "R$" from text without an 'R' changes nothing. */
  lemma StripAbsentSymbol(body: string)
    requires forall i :: 0 <= i < |body| ==> body[i] != 'R'
    ensures ReplaceFirst(body, "R$", "") == body
  {
    NoOccurrenceWithoutFirstChar(body, "R$");
    ReplaceFirstAbsent(body, "R$", "");
  }

  /** The first ',' of `pre + d + "," + cc` is the one after the numeral `d`. */
  lemma CommaToPoint(pre: string, d: string, cc: string)
    requires forall j :: 0 <= j < |pre| ==> pre[j] != ','
    requires AllDigits(d)
    ensures ReplaceFirst(pre + d + "," + cc, ",", ".") == pre + d + "." + cc
  {
    var s := pre + d + "," + cc;
    var i := |pre| + |d|;
    assert s[i..i + 1] == ",";
    forall j | 0 <= j < i ensures !OccursAt(s, ",", j) {
      assert s[j..j + 1][0] == s[j];
    }
    ReplaceFirstLeftmost(s, ",", ".", i);
    assert s[..i] == pre + d;
    assert s[i + 1..] == cc;
  }

  /** Trimming removes the blank left after the symbol, and nothing else. */
  lemma TrimNumeral(pre: string, t: string)
    requires pre == "" || pre == " "
    requires 0 < |t| && IsDigit(t[0]) && IsDigit(t[|t| - 1])
    ensures Trim(pre + t) == t
  {
    if pre == " " {
      assert (pre + t)[1..] == t;
    } else {
      assert pre + t == t;
    }
    TrimUnchanged(t);
  }

  /** Dropping the '.' of the formatted text touches only the thousands groups. */
  lemma RemoveSeparators(pre: string, g: string, cc: string)
    requires pre == "" || pre == " "
    requires AllDigits(cc)
    ensures RemoveChar(pre + (g + "," + cc), '.') == pre + RemoveChar(g, '.') + "," + cc
  {
    var tail := "," + cc;
    assert RemoveChar(tail, '.') == tail by {
      RemoveCharAbsent(tail, '.');
    }
    assert RemoveChar(pre + g, '.') == pre + RemoveChar(g, '.') by {
      RemoveCharAppend(pre, g, '.');
      RemoveCharAbsent(pre, '.');
    }
    RemoveCharAppend(pre + g, tail, '.');
    Regroup(pre, g, cc);
    Regroup(pre, RemoveChar(g, '.'), cc);
  }

  /** `pre + (g + "," + cc)` and `pre + g + "," + cc` are the same text. */
  lemma Regroup(pre: string, g: string, cc: string)
    ensures pre + (g + "," + cc) == (pre + g) + ("," + cc)
    ensures pre + g + "," + cc == (pre + g) + ("," + cc)
  {
  }

  /** The numeral left once the formatted text is cleaned is read back as the amount. */
  lemma ParseUngrouped(cents: nat)
    ensures ParseCents(RemoveChar(GroupThousands(cents / 100), '.') + "." + PaddedNumeral(cents % 100, 2))
         == Some(cents)
  {
    UngroupThousands(cents / 100);
    ReadPieces(RemoveChar(GroupThousands(cents / 100), '.'), PaddedNumeral(cents % 100, 2), cents);
  }

  /** The numeral of the whole reais of an amount, a point and its two-digit cents read back as the amount. */
  lemma ReadPieces(d: string, cc: string, cents: nat)
    requires 0 < |d| && AllDigits(d) && DigitsValue(d) == cents / 100
    requires |cc| == 2 && AllDigits(cc) && DigitsValue(cc) == cents % 100
    ensures ParseCents(d + "." + cc) == Some(cents)
  {
    ParseTwoDecimals(d, cc);
  }

  /** What cleaning does to the text once the symbol is gone: `pre g,cc` becomes `d.cc`. */
  lemma CleanAfterSymbol(pre: string, g: string, cc: string)
    requires pre == "" || pre == " "
    requires AllDigits(cc) && 0 < |cc|
    requires 0 < |RemoveChar(g, '.')| && AllDigits(RemoveChar(g, '.'))
    ensures Trim(ReplaceFirst(RemoveChar(pre + (g + "," + cc), '.'), ",", "."))
         == RemoveChar(g, '.') + "." + cc
  {
    var d := RemoveChar(g, '.');
    var dropped := RemoveChar(pre + (g + "," + cc), '.');
    assert dropped == pre + d + "," + cc by {
      RemoveSeparators(pre, g, cc);
    }
    assert ReplaceFirst(dropped, ",", ".") == pre + (d + "." + cc) by {
      CommaToPoint(pre, d, cc);
      assert pre + d + "." + cc == pre + (d + "." + cc);
    }
    TrimNumeral(pre, d + "." + cc);
  }

  /** The text `g,cc` of digits, separators and a comma holds no 'R'. */
  lemma NoLetterInAmount(g: string, cc: string)
    requires forall i :: 0 <= i < |g| ==> IsDigit(g[i]) || g[i] == '.'
    requires AllDigits(cc)
    ensures forall i :: 0 <= i < |g + "," + cc| ==> (g + "," + cc)[i] != 'R'
  {
    var body := g + "," + cc;
    forall i | 0 <= i < |body| ensures body[i] != 'R' {
      if i < |g| {
        assert body[i] == g[i];
      } else if i > |g| {
        assert body[i] == cc[i - |g| - 1];
      }
    }
  }

  /** Removing the first "R$" from `[R$ ]body`, where `body` holds no 'R', leaves `body`, after a blank when the symbol was there. */
  lemma StripSymbolFrom(withSymbol: bool, body: string)
    requires forall i :: 0 <= i < |body| ==> body[i] != 'R'
    ensures ReplaceFirst(Symbol(withSymbol) + body, "R$", "") == (if withSymbol then " " else "") + body
  {
    if withSymbol {
      assert Symbol(withSymbol) == "R$ ";
      StripLeadingSymbol(body);
    } else {
      assert Symbol(withSymbol) + body == body;
      StripAbsentSymbol(body);
    }
  }

  /** Removing the first "R$" from `[R$ ]g,cc` leaves the amount, after a blank when the symbol was there. */
  lemma StripSymbol(withSymbol: bool, g: string, cc: string)
    requires forall i :: 0 <= i < |g| ==> IsDigit(g[i]) || g[i] == '.'
    requires AllDigits(cc)
    ensures ReplaceFirst(Symbol(withSymbol) + g + "," + cc, "R$", "")
         == (if withSymbol then " " else "") + (g + "," + cc)
  {
    var body := g + "," + cc;
    assert Symbol(withSymbol) + g + "," + cc == Symbol(withSymbol) + body;
    NoLetterInAmount(g, cc);
    StripSymbolFrom(withSymbol, body);
  }

  /** Cleaning `[R$ ]g,cc`, where `g` holds digits and separators, leaves `d.cc`, `d` being `g` without separators. */
  lemma CleanGrouped(withSymbol: bool, g: string, cc: string)
    requires forall i :: 0 <= i < |g| ==> IsDigit(g[i]) || g[i] == '.'
    requires 0 < |RemoveChar(g, '.')| && AllDigits(RemoveChar(g, '.'))
    requires 0 < |cc| && AllDigits(cc)
    ensures Clean(Symbol(withSymbol) + g + "," + cc) == RemoveChar(g, '.') + "." + cc
  {
    StripSymbol(withSymbol, g, cc);
    CleanAfterSymbol(if withSymbol then " " else "", g, cc);
  }

  /**
   Text in the modelled grammar — an optional "R$ ", digits and '.' thousands
   separators, ',' and two decimals — is read as its digits, with the separators
   ignored, as a number of cents.
   */
  lemma NormalizeGrouped(withSymbol: bool, g: string, cc: string)
    requires forall i :: 0 <= i < |g| ==> IsDigit(g[i]) || g[i] == '.'
    requires exists i :: 0 <= i < |g| && IsDigit(g[i])
    requires |cc| == 2 && AllDigits(cc)
    ensures AllDigits(RemoveChar(g, '.'))
    ensures Normalize(Str(Symbol(withSymbol) + g + "," + cc))
         == Some(DigitsValue(RemoveChar(g, '.')) * 100 + DigitsValue(cc))
  {
    var d := RemoveChar(g, '.');
    GroupedDigits(g);
    CleanGrouped(withSymbol, g, cc);
    ParseTwoDecimals(d, cc);
    NormalizeCleaned(Symbol(withSymbol) + g + "," + cc, d + "." + cc, DigitsValue(d) * 100 + DigitsValue(cc));
  }

  /** Removing the first "R$" from `[R$ ]g`, where `g` holds digits and separators, leaves `g`, after a blank when the symbol was there. */
  lemma StripSymbolWhole(withSymbol: bool, g: string)
    requires forall i :: 0 <= i < |g| ==> IsDigit(g[i]) || g[i] == '.'
    ensures ReplaceFirst(Symbol(withSymbol) + g, "R$", "") == (if withSymbol then " " else "") + g
  {
    forall i | 0 <= i < |g| ensures g[i] != 'R' {
      assert IsDigit(g[i]) || g[i] == '.';
    }
    StripSymbolFrom(withSymbol, g);
  }

  /** The blank before the amount holds no separator, so dropping the separators of `pre g` only touches `g`. */
  lemma DropSeparatorsAfterBlank(pre: string, g: string)
    requires pre == "" || pre == " "
    ensures RemoveChar(pre + g, '.') == pre + RemoveChar(g, '.')
  {
    RemoveCharAppend(pre, g, '.');
    RemoveCharAbsent(pre, '.');
  }

  /** A blank and a numeral hold no ',', so turning the first ',' into '.' leaves them unchanged. */
  lemma NoCommaInNumeral(pre: string, d: string)
    requires pre == "" || pre == " "
    requires AllDigits(d)
    ensures ReplaceFirst(pre + d, ",", ".") == pre + d
  {
    var t := pre + d;
    forall i | 0 <= i < |t| ensures t[i] != ',' {
      if i >= |pre| {
        assert t[i] == d[i - |pre|];
      }
    }
    NoOccurrenceWithoutFirstChar(t, ",");
    ReplaceFirstAbsent(t, ",", ".");
  }

  /** With no ',' to turn into '.', cleaning `pre g` drops the separators and the blank. */
  lemma CleanWholeAfterSymbol(pre: string, g: string)
    requires pre == "" || pre == " "
    requires 0 < |RemoveChar(g, '.')| && AllDigits(RemoveChar(g, '.'))
    ensures Trim(ReplaceFirst(RemoveChar(pre + g, '.'), ",", ".")) == RemoveChar(g, '.')
  {
    var d := RemoveChar(g, '.');
    DropSeparatorsAfterBlank(pre, g);
    NoCommaInNumeral(pre, d);
    TrimNumeral(pre, d);
  }

  /** Cleaning `[R$ ]g`, where `g` holds digits and separators, leaves `g` without its separators. */
  lemma CleanWhole(withSymbol: bool, g: string)
    requires forall i :: 0 <= i < |g| ==> IsDigit(g[i]) || g[i] == '.'
    requires 0 < |RemoveChar(g, '.')| && AllDigits(RemoveChar(g, '.'))
    ensures Clean(Symbol(withSymbol) + g) == RemoveChar(g, '.')
  {
    StripSymbolWhole(withSymbol, g);
    CleanWholeAfterSymbol(if withSymbol then " " else "", g);
  }

  /**
   Text in the modelled grammar without a decimal part — an optional "R$ ", then
   digits and '.' thousands separators — is read as its digits, with the separators
   ignored, as whole reais.
   */
  lemma NormalizeGroupedWhole(withSymbol: bool, g: string)
    requires forall i :: 0 <= i < |g| ==> IsDigit(g[i]) || g[i] == '.'
    requires exists i :: 0 <= i < |g| && IsDigit(g[i])
    ensures AllDigits(RemoveChar(g, '.'))
    ensures Normalize(Str(Symbol(withSymbol) + g)) == Some(DigitsValue(RemoveChar(g, '.')) * 100)
  {
    var d := RemoveChar(g, '.');
    GroupedDigits(g);
    CleanWhole(withSymbol, g);
    ParseWhole(d);
    NormalizeCleaned(Symbol(withSymbol) + g, d, DigitsValue(d) * 100);
  }

  /** Digits and separators, with at least one digit, leave a non-empty numeral once the separators go. */
  lemma GroupedDigits(g: string)
    requires forall i :: 0 <= i < |g| ==> IsDigit(g[i]) || g[i] == '.'
    requires exists i :: 0 <= i < |g| && IsDigit(g[i])
    ensures 0 < |RemoveChar(g, '.')| && AllDigits(RemoveChar(g, '.'))
  {
    DigitsAfterRemovingDots(g);
    var i :| 0 <= i < |g| && IsDigit(g[i]);
    KeptByRemoveChar(g, '.', i);
  }

  /** Text whose cleaned form parses to `x` cents is normalised to `x`. */
  lemma NormalizeCleaned(s: string, t: string, x: nat)
    requires Clean(s) == t && ParseCents(t) == Some(x)
    ensures Normalize(Str(s)) == Some(x)
  {
  }

  /** Cleaning a formatted amount leaves the plain numeral, a point and the cents. */
  lemma CleanFormatted(cents: nat, withSymbol: bool)
    ensures Clean(Format(cents, withSymbol))
         == RemoveChar(GroupThousands(cents / 100), '.') + "." + PaddedNumeral(cents % 100, 2)
  {
    UngroupThousands(cents / 100);
    CleanGrouped(withSymbol, GroupThousands(cents / 100), PaddedNumeral(cents % 100, 2));
  }

  /** Normalising a formatted amount gives back the amount. */
  lemma RoundTrip(cents: nat, withSymbol: bool)
    ensures Normalize(Str(Format(cents, withSymbol))) == Some(cents)
  {
    CleanFormatted(cents, withSymbol);
    ParseUngrouped(cents);
  }
}

=== FILE: quotients.dfy ===
/**
 JavaScript division of two amounts in cents, as the rules use it, and the
 comparisons of its result with integer thresholds. Division by zero gives
 +Infinity, -Infinity or NaN; NaN fails every comparison.
 */
module Quotients {

  /** A JavaScript quotient: a rational `num / den` with `den > 0`, an infinity, or NaN. */
  datatype Quotient = Finite(num: int, den: int) | PosInfinity | NegInfinity | NaN

  /** `n / d`. */
  function Divide(n: int, d: int): (q: Quotient)
    ensures q.Finite? <==> d != 0
    ensures q.Finite? ==> q.den > 0 && q.num * d == n * q.den
    ensures q == PosInfinity <==> d == 0 && n > 0
    ensures q == NegInfinity <==> d == 0 && n < 0
    ensures q == NaN <==> d == 0 && n == 0
  {
    if d > 0 then Finite(n, d)
    else if d < 0 then Finite(-n, -d)
    else if n > 0 then PosInfinity
    else if n < 0 then NegInfinity
    else NaN
  }

  /** `q * k` for a positive whole `k`. */
  function Scale(q: Quotient, k: int): Quotient
    requires k > 0
  {
    match q
    case Finite(n, d) => Finite(n * k, d)
    case _ => q
  }

  /** `q <= k`. */
  predicate AtMost(q: Quotient, k: int)
  {
    match q
    case Finite(n, d) => n <= k * d
    case NegInfinity => true
    case _ => false
  }

  /** `q >= k`. */
  predicate AtLeast(q: Quotient, k: int)
  {
    match q
    case Finite(n, d) => n >= k * d
    case PosInfinity => true
    case _ => false
  }

  /**
   `(n / d) * s <= k`, decided by cross-multiplication: a positive divisor keeps
   the inequality, a negative one turns it round, and a zero divisor leaves only
   -Infinity (a negative dividend) below `k`.
   */
  lemma ScaledAtMost(n: int, d: int, s: int, k: int)
    requires s > 0
    ensures AtMost(Scale(Divide(n, d), s), k)
        <==> (d > 0 && n * s <= k * d) || (d < 0 && n * s >= k * d) || (d == 0 && n < 0)
  {
    if d < 0 {
      assert (-n) * s == -(n * s);
      assert k * (-d) == -(k * d);
    }
  }

  /**
   `n / d >= k`, decided by cross-multiplication; a zero divisor leaves only
   +Infinity (a positive dividend) above `k`.
   */
  lemma QuotientAtLeast(n: int, d: int, k: int)
    ensures AtLeast(Divide(n, d), k)
        <==> (d > 0 && n >= k * d) || (d < 0 && n <= k * d) || (d == 0 && n > 0)
  {
    if d < 0 {
      assert k * (-d) == -(k * d);
    }
  }
}

=== FILE: scenarios.dfy ===
/**
 The worked examples of the test suite, stated about the model: the amounts the
 normaliser reads and the verdicts expected for the base application and its
 variations. The evaluation date is left free, bounded below where the base
 tenant's age depends on it.
 */
module Scenarios {
  import opened Wrappers
  import opened Text
  import opened Money
  import opened Age
  import opened Quotients
  import opened Evaluation

  /* ---------------- Amounts ---------------- */

  /** "R$ 0,00" is zero. */
  lemma ReadsZero()
    ensures Normalize(Str("R$ 0,00")) == Some(0)
  {
    assert "00"[..1] == "0" && "0"[..0] == "";
    assert DigitsValue("0") == 0;
    assert DigitsValue("00") == 0;
    assert RemoveChar("0", '.') == "0";
    assert Symbol(true) + "0" + "," + "00" == "R$ 0,00";
    NormalizeGrouped(true, "0", "00");
  }

  /**
   On an exact boundary the rules compare exact amounts: charges of R$ 500,04 are
   exactly 30 % of an income of R$ 1.666,80 and earn the compatible line, and a
   guarantor earning R$ 1.500,12 covers them exactly three times over. (The
   JavaScript's binary64 division lands just past both boundaries.)
   */
  lemma ExactBoundariesPass(v: Verdict)
    ensures Affordability(v, 50004, 166680).details[|v.details| + 1] == IncomeCompatible
    ensures Affordability(v, 50004, 166680).score == v.score + 50
    ensures CoversThreeTimes(150012, 50004) && !CoversThreeTimes(150011, 50004)
  {
  }

  /* ---------------- Verdicts ---------------- */

  /** The monetary texts of an application. */
  datatype Texts = Texts(
    rent: string,
    condoFee: string,
    income: string,
    otherIncome: string,
    guarantorIncome: string)

  /**
   The texts of the test suite's base application read as R$ 1.000,00 of rent, no
   condominium fee and no other income, with `income` and `backing` cents of tenant
   and guarantor income.
   */
  predicate ReadAs(t: Texts, income: int, backing: int)
  {
    && Normalize(Str(t.rent)) == Some(100000)
    && Normalize(Str(t.condoFee)) == Some(0)
    && Normalize(Str(t.income)) == Some(income)
    && Normalize(Str(t.otherIncome)) == Some(0)
    && Normalize(Str(t.guarantorIncome)) == Some(backing)
  }

  /**
   The test suite's base application: a tenant born on 1 January 1990, no credit
   restriction, a guarantor, and the given texts and employment bond.
   */
  function Profile(t: Texts, employment: string): Application
  {
    Application(
      Property(Str(t.rent), Str(t.condoFee)),
      Tenant(Date(1990, 1, 1)),
      Finances(Str(t.income), Str(t.otherIncome), false, employment),
      Guarantee("Fiador", Some(Guarantor(Str(t.guarantorIncome)))))
  }

  /** "CLT", the formal private-sector bond, is stable employment. */
  lemma CltIsStable()
    ensures StableEmployment("CLT")
  {
    assert "CLT"[..3] == "CLT";
  }

  /** "Autonomo" (self-employed) is not: it holds neither a 'C' nor a 'P'. */
  lemma AutonomoIsNotStable()
    ensures !StableEmployment("Autonomo")
  {
    assert 'C' !in "Autonomo" && 'P' !in "Autonomo";
    NoOccurrenceWithoutFirstChar("Autonomo", "CLT");
    ContainsIff("Autonomo", "CLT");
    NoOccurrenceWithoutFirstChar("Autonomo", "Publico");
    ContainsIff("Autonomo", "Publico");
  }

  /** The modality "Fiador" calls for a personal guarantor. */
  lemma FiadorNamesGuarantor(backing: MonetaryValue)
    ensures NamesGuarantor(Guarantee("Fiador", Some(Guarantor(backing))))
  {
    assert "Fiador"[..|"Fiador"|] == "Fiador";
  }

  /**
   From 2008 on the tenant born in 1990 is of age, so the profile runs through the
   three scoring stages on the amounts its texts read as, and its verdict is the one
   the guarantor stage hands on, with the employment bonus and the final status.
   */
  lemma ProfileOutcome(t: Texts, employment: string, today: Date, income: int, backing: int, v: Verdict)
    requires ValidDate(today) && today.year >= 2008
    requires ReadAs(t, income, backing)
    requires GuarantorCheck(Affordability(Pending, 100000, income), Profile(t, employment).guarantee, 100000)
          == Success(v)
    ensures Evaluate(Profile(t, employment), today) == Success(Decide(EmploymentBonus(v, employment)))
  {
    var app := Profile(t, employment);
    assert !Blocked(app, today);
    FiadorNamesGuarantor(Str(t.guarantorIncome));
    assert TotalCharges(app.property).Some? && TotalCharges(app.property).value == 100000;
    assert TenantIncome(app.finances).Some? && TenantIncome(app.finances).value == income;
  }

  /** The commitment lines and points of the suite's three incomes against R$ 1.000,00 of charges. */
  lemma SuiteCommitments()
    ensures Affordability(Pending, 100000, 400000)
         == Verdict(EmAnalise, 50, [Commitment(Finite(10000000, 400000)), IncomeCompatible])
    ensures Affordability(Pending, 100000, 300000)
         == Verdict(EmAnalise, 30, [Commitment(Finite(10000000, 300000)), IncomeAtLimit])
    ensures Affordability(Pending, 100000, 200000)
         == Verdict(EmAnalise, 0, [Commitment(Finite(10000000, 200000)), IncomeInsufficient])
  {
  }

  /** A guarantor earning at least R$ 3.000,00 against R$ 1.000,00 of charges earns the 40 points. */
  lemma SufficientGuarantor(v: Verdict, g: Guarantee, backing: int)
    requires NamesGuarantor(g) && g.guarantor.Some? && Normalize(g.guarantor.value.income) == Some(backing)
    requires backing >= 300000
    ensures GuarantorCheck(v, g, 100000)
         == Success(Verdict(v.status, v.score + 40,
              v.details + [GuarantorCoverage(Finite(backing, 100000)), GuarantorSufficient]))
  {
  }

  /** A guarantor earning less than R$ 3.000,00 against R$ 1.000,00 of charges earns nothing. */
  lemma InsufficientGuarantor(v: Verdict, g: Guarantee, backing: int)
    requires NamesGuarantor(g) && g.guarantor.Some? && Normalize(g.guarantor.value.income) == Some(backing)
    requires backing < 300000
    ensures GuarantorCheck(v, g, 100000)
         == Success(Verdict(v.status, v.score,
              v.details + [GuarantorCoverage(Finite(backing, 100000)), GuarantorInsufficient]))
  {
  }

  /** Two lines of trail followed by two more. */
  lemma TwoThenTwo(w: Detail, x: Detail, y: Detail, z: Detail)
    ensures [w, x] + [y, z] == [w, x, y, z]
  {
  }

  /**
   Test case 1: the base application — income and guarantor income of R$ 4.000,00,
   stable employment — is approved with the full 100 points: a 25 % commitment and
   a fourfold guarantor.
   */
  lemma BaseProfileApproved(t: Texts, employment: string, today: Date)
    requires ValidDate(today) && today.year >= 2008
    requires ReadAs(t, 400000, 400000) && StableEmployment(employment)
    ensures Evaluate(Profile(t, employment), today)
         == Success(Verdict(Aprovado, 100,
              [Commitment(Finite(10000000, 400000)), IncomeCompatible,
               GuarantorCoverage(Finite(400000, 100000)), GuarantorSufficient]))
  {
    var app := Profile(t, employment);
    FiadorNamesGuarantor(Str(t.guarantorIncome));
    SuiteCommitments();
    SufficientGuarantor(Affordability(Pending, 100000, 400000), app.guarantee, 400000);
    TwoThenTwo(Commitment(Finite(10000000, 400000)), IncomeCompatible, GuarantorCoverage(Finite(400000, 100000)), GuarantorSufficient);
    ProfileOutcome(t, employment, today, 400000, 400000,
      Verdict(EmAnalise, 90, [Commitment(Finite(10000000, 400000)), IncomeCompatible, GuarantorCoverage(Finite(400000, 100000)), GuarantorSufficient]));
  }

  /**
   Test case 4: with an income of R$ 3.000,00 the commitment is at the limit (between
   30 % and 35 %); the guarantor and the employment bonus still bring the score to 80.
   */
  lemma IncomeAtLimitNoted(t: Texts, employment: string, today: Date)
    requires ValidDate(today) && today.year >= 2008
    requires ReadAs(t, 300000, 400000) && StableEmployment(employment)
    ensures Evaluate(Profile(t, employment), today)
         == Success(Verdict(Aprovado, 80,
              [Commitment(Finite(10000000, 300000)), IncomeAtLimit,
               GuarantorCoverage(Finite(400000, 100000)), GuarantorSufficient]))
  {
    var app := Profile(t, employment);
    FiadorNamesGuarantor(Str(t.guarantorIncome));
    SuiteCommitments();
    SufficientGuarantor(Affordability(Pending, 100000, 300000), app.guarantee, 400000);
    TwoThenTwo(Commitment(Finite(10000000, 300000)), IncomeAtLimit, GuarantorCoverage(Finite(400000, 100000)), GuarantorSufficient);
    ProfileOutcome(t, employment, today, 300000, 400000,
      Verdict(EmAnalise, 70, [Commitment(Finite(10000000, 300000)), IncomeAtLimit, GuarantorCoverage(Finite(400000, 100000)), GuarantorSufficient]));
  }

  /**
   Test case 5: a guarantor earning only twice the charges loses the 40 points; the
   score falls from 100 to 60 and the application is approved with reservations.
   */
  lemma WeakGuarantorPenalized(t: Texts, employment: string, today: Date)
    requires ValidDate(today) && today.year >= 2008
    requires ReadAs(t, 400000, 200000) && StableEmployment(employment)
    ensures Evaluate(Profile(t, employment), today)
         == Success(Verdict(AprovadoComRessalvas, 60,
              [Commitment(Finite(10000000, 400000)), IncomeCompatible,
               GuarantorCoverage(Finite(200000, 100000)), GuarantorInsufficient]))
  {
    var app := Profile(t, employment);
    FiadorNamesGuarantor(Str(t.guarantorIncome));
    SuiteCommitments();
    InsufficientGuarantor(Affordability(Pending, 100000, 400000), app.guarantee, 200000);
    TwoThenTwo(Commitment(Finite(10000000, 400000)), IncomeCompatible, GuarantorCoverage(Finite(200000, 100000)), GuarantorInsufficient);
    ProfileOutcome(t, employment, today, 400000, 200000,
      Verdict(EmAnalise, 50, [Commitment(Finite(10000000, 400000)), IncomeCompatible, GuarantorCoverage(Finite(200000, 100000)), GuarantorInsufficient]));
  }

  /**
   Test case 6: income of R$ 2.000,00 (a 50 % commitment), a guarantor earning
   R$ 1.500,00 and no stable employment: rejected with score 0.
   */
  lemma LowIncomeRejected(t: Texts, employment: string, today: Date)
    requires ValidDate(today) && today.year >= 2008
    requires ReadAs(t, 200000, 150000) && !StableEmployment(employment)
    ensures Evaluate(Profile(t, employment), today)
         == Success(Verdict(Reprovado, 0,
              [Commitment(Finite(10000000, 200000)), IncomeInsufficient,
               GuarantorCoverage(Finite(150000, 100000)), GuarantorInsufficient]))
  {
    var app := Profile(t, employment);
    FiadorNamesGuarantor(Str(t.guarantorIncome));
    SuiteCommitments();
    InsufficientGuarantor(Affordability(Pending, 100000, 200000), app.guarantee, 150000);
    TwoThenTwo(Commitment(Finite(10000000, 200000)), IncomeInsufficient, GuarantorCoverage(Finite(150000, 100000)), GuarantorInsufficient);
    ProfileOutcome(t, employment, today, 200000, 150000,
      Verdict(EmAnalise, 0, [Commitment(Finite(10000000, 200000)), IncomeInsufficient, GuarantorCoverage(Finite(150000, 100000)), GuarantorInsufficient]));
  }

  /** Test case 2: a credit restriction rejects the base application outright. */
  lemma RestrictedProfileRejected(t: Texts, employment: string, today: Date)
    ensures
      var app := Profile(t, employment);
      Evaluate(app.(finances := app.finances.(hasRestriction := true)), today)
        == Success(Verdict(Reprovado, 0, [RestrictionRejection]))
  {
    var app := Profile(t, employment);
    RestrictionRejectsFirst(app.(finances := app.finances.(hasRestriction := true)), today);
  }

  /** Test case 3: born on 1 January seventeen years before this year, the tenant is rejected as a minor. */
  lemma MinorProfileRejected(t: Texts, employment: string, today: Date)
    requires ValidDate(today)
    ensures
      var app := Profile(t, employment);
      Evaluate(app.(tenant := Tenant(Date(today.year - 17, 1, 1))), today)
        == Success(Verdict(Reprovado, 0, [MinorRejection]))
  {
    var app := Profile(t, employment).(tenant := Tenant(Date(today.year - 17, 1, 1)));
    AgeFromNewYear(today, 17);
    MinorityRejectsNext(app, today);
  }

  /* ---------------- The suite's own texts ---------------- */

  /**
   The texts of the test suite's base application as the formatter writes them:
   "R$ 1.000,00" of rent, "R$ 0,00" of condominium fee and of other income, and the
   given tenant and guarantor incomes ("R$ 4.000,00" for 400000 cents). They read
   as the amounts the scenario lemmas above assume.
   */
  function SuiteTexts(income: nat, backing: nat): (t: Texts)
    ensures ReadAs(t, income, backing)
  {
    RoundTrip(100000, true);
    RoundTrip(0, true);
    RoundTrip(income, true);
    RoundTrip(backing, true);
    Texts(Format(100000, true), Format(0, true), Format(income, true), Format(0, true), Format(backing, true))
  }

  /** Test case 1 on the suite's own texts and the bond "CLT": approved with 100 points. */
  lemma SuiteBaseApproved(today: Date)
    requires ValidDate(today) && today.year >= 2008
    ensures Evaluate(Profile(SuiteTexts(400000, 400000), "CLT"), today)
         == Success(Verdict(Aprovado, 100,
              [Commitment(Finite(10000000, 400000)), IncomeCompatible,
               GuarantorCoverage(Finite(400000, 100000)), GuarantorSufficient]))
  {
    var income: nat, backing: nat := 400000, 400000;
    var t := SuiteTexts(income, backing);
    CltIsStable();
    BaseProfileApproved(t, "CLT", today);
  }

  /** Test case 4 on the suite's own texts ("R$ 3.000,00" of income) and the bond "CLT": approved with 80 points and the limit line. */
  lemma SuiteLimitApproved(today: Date)
    requires ValidDate(today) && today.year >= 2008
    ensures Evaluate(Profile(SuiteTexts(300000, 400000), "CLT"), today)
         == Success(Verdict(Aprovado, 80,
              [Commitment(Finite(10000000, 300000)), IncomeAtLimit,
               GuarantorCoverage(Finite(400000, 100000)), GuarantorSufficient]))
  {
    var income: nat, backing: nat := 300000, 400000;
    var t := SuiteTexts(income, backing);
    CltIsStable();
    IncomeAtLimitNoted(t, "CLT", today);
  }

  /** Test case 5 on the suite's own texts ("R$ 2.000,00" of guarantor income) and the bond "CLT": approved with reservations. */
  lemma SuiteWeakGuarantor(today: Date)
    requires ValidDate(today) && today.year >= 2008
    ensures Evaluate(Profile(SuiteTexts(400000, 200000), "CLT"), today)
         == Success(Verdict(AprovadoComRessalvas, 60,
              [Commitment(Finite(10000000, 400000)), IncomeCompatible,
               GuarantorCoverage(Finite(200000, 100000)), GuarantorInsufficient]))
  {
    var income: nat, backing: nat := 400000, 200000;
    var t := SuiteTexts(income, backing);
    CltIsStable();
    WeakGuarantorPenalized(t, "CLT", today);
  }

  /** Test case 6 on the suite's own texts and the bond "Autonomo": rejected with 0 points. */
  lemma SuiteLowIncomeRejected(today: Date)
    requires ValidDate(today) && today.year >= 2008
    ensures Evaluate(Profile(SuiteTexts(200000, 150000), "Autonomo"), today)
         == Success(Verdict(Reprovado, 0,
              [Commitment(Finite(10000000, 200000)), IncomeInsufficient,
               GuarantorCoverage(Finite(150000, 100000)), GuarantorInsufficient]))
  {
    var income: nat, backing: nat := 200000, 150000;
    var t := SuiteTexts(income, backing);
    AutonomoIsNotStable();
    LowIncomeRejected(t, "Autonomo", today);
  }
}

=== FILE: text.dfy ===
/**
 The JavaScript string operations the rules rely on, over `string` (a sequence of
 characters): `String.prototype.replace` with a string pattern (first
 occurrence only), removal of every occurrence of one character (a global regular
 expression replace), `trim` and `includes`; plus decimal digits and their value.
 */
module Text {

  /* ---------------- Occurrence of a substring ---------------- */

  /** `sub` occurs in `s` starting at index `i`. */
  predicate OccursAt(s: string, sub: string, i: int)
  {
    0 <= i && i + |sub| <= |s| && s[i..i + |sub|] == sub
  }

  /** `s.includes(sub)`. */
  predicate Contains(s: string, sub: string)
    decreases |s|
  {
    |sub| <= |s| && (s[..|sub|] == sub || (0 < |s| && Contains(s[1..], sub)))
  }

  /** `includes` holds exactly when the substring occurs at some index. */
  lemma {:induction false} ContainsIff(s: string, sub: string)
    ensures Contains(s, sub) <==> exists i :: OccursAt(s, sub, i)
    decreases |s|
  {
    if Contains(s, sub) {
      if s[..|sub|] == sub {
        assert OccursAt(s, sub, 0);
      } else {
        ContainsIff(s[1..], sub);
        var i :| OccursAt(s[1..], sub, i);
        assert s[1..][i..i + |sub|] == s[i + 1..i + 1 + |sub|];
        assert OccursAt(s, sub, i + 1);
      }
    } else if i :| OccursAt(s, sub, i) {
      if i != 0 {
        assert s[1..][i - 1..i - 1 + |sub|] == s[i..i + |sub|];
        assert OccursAt(s[1..], sub, i - 1);
        ContainsIff(s[1..], sub);
      }
    }
  }

  /** A pattern cannot occur where its first character never appears. */
  lemma NoOccurrenceWithoutFirstChar(s: string, pat: string)
    requires 0 < |pat|
    requires forall i :: 0 <= i < |s| ==> s[i] != pat[0]
    ensures forall i :: !OccursAt(s, pat, i)
  {
    forall i | 0 <= i && i + |pat| <= |s| ensures !OccursAt(s, pat, i) {
      assert s[i..i + |pat|][0] == s[i];
    }
  }

  /* ---------------- Replace the first occurrence ---------------- */

  /**
   `s.replace(pat, rep)` with a string pattern: the first occurrence of `pat` is
   replaced by `rep`; an empty pattern matches at the start.
   */
  function ReplaceFirst(s: string, pat: string, rep: string): (r: string)
    ensures |r| == |s| || |r| == |s| - |pat| + |rep|
    decreases |s|
  {
    if |s| < |pat| then s
    else if s[..|pat|] == pat then rep + s[|pat|..]
    else [s[0]] + ReplaceFirst(s[1..], pat, rep)
  }

  /** Without an occurrence of the pattern, `replace` returns the string unchanged. */
  lemma {:induction false} ReplaceFirstAbsent(s: string, pat: string, rep: string)
    requires forall i :: !OccursAt(s, pat, i)
    ensures ReplaceFirst(s, pat, rep) == s
    decreases |s|
  {
    if |pat| <= |s| {
      assert !OccursAt(s, pat, 0);
      forall i ensures !OccursAt(s[1..], pat, i) {
        if OccursAt(s[1..], pat, i) {
          assert s[1..][i..i + |pat|] == s[i + 1..i + 1 + |pat|];
          assert OccursAt(s, pat, i + 1);
        }
      }
      ReplaceFirstAbsent(s[1..], pat, rep);
    }
  }

  /** `replace` splices `rep` in place of the leftmost occurrence of the pattern. */
  lemma {:induction false} ReplaceFirstLeftmost(s: string, pat: string, rep: string, i: int)
    requires OccursAt(s, pat, i)
    requires forall j :: 0 <= j < i ==> !OccursAt(s, pat, j)
    ensures ReplaceFirst(s, pat, rep) == s[..i] + rep + s[i + |pat|..]
    decreases |s|
  {
    if i == 0 {
      assert s[..|pat|] == pat;
    } else {
      assert !OccursAt(s, pat, 0);
      assert ReplaceFirst(s, pat, rep) == [s[0]] + ReplaceFirst(s[1..], pat, rep);
      OccurrencesInTail(s, pat, i);
      ReplaceFirstLeftmost(s[1..], pat, rep, i - 1);
      SpliceAfterHead(s, rep, i, i + |pat|);
    }
  }

  /** Dropping the first character moves the leftmost occurrence one index to the left. */
  lemma OccurrencesInTail(s: string, pat: string, i: int)
    requires 0 < i && OccursAt(s, pat, i)
    requires forall j :: 0 <= j < i ==> !OccursAt(s, pat, j)
    ensures OccursAt(s[1..], pat, i - 1)
    ensures forall j :: 0 <= j < i - 1 ==> !OccursAt(s[1..], pat, j)
  {
    OccursShift(s, pat, i - 1);
    forall j | 0 <= j < i - 1 ensures !OccursAt(s[1..], pat, j) {
      OccursShift(s, pat, j);
    }
  }

  /** Putting the first character back in front of a splice in the tail. */
  lemma SpliceAfterHead(s: string, rep: string, i: int, k: int)
    requires 0 < i <= k <= |s|
    ensures [s[0]] + (s[1..][..i - 1] + rep + s[1..][k - 1..]) == s[..i] + rep + s[k..]
  {
    assert s[1..][..i - 1] == s[1..i];
    assert s[1..][k - 1..] == s[k..];
    assert [s[0]] + s[1..i] == s[..i];
  }

  /** An occurrence in the tail of a string is an occurrence one index later in the string. */
  lemma OccursShift(s: string, pat: string, j: int)
    requires 0 < |s| && 0 <= j
    ensures OccursAt(s[1..], pat, j) <==> OccursAt(s, pat, j + 1)
  {
    if j + |pat| <= |s| - 1 {
      assert s[1..][j..j + |pat|] == s[j + 1..j + 1 + |pat|];
    }
  }

  /* ---------------- Remove every occurrence of a character ---------------- */

  /** `s.replace(/c/g, '')`: every occurrence of `c` dropped, the rest kept in order. */
  function RemoveChar(s: string, c: char): (r: string)
    ensures |r| <= |s|
    ensures forall i :: 0 <= i < |r| ==> r[i] != c
    ensures (forall i :: 0 <= i < |s| ==> s[i] != c) ==> r == s
  {
    if |s| == 0 then ""
    else if s[0] == c then RemoveChar(s[1..], c)
    else [s[0]] + RemoveChar(s[1..], c)
  }

  /** A text made of the removed character alone vanishes. */
  lemma RemoveCharOfItself(c: char)
    ensures RemoveChar([c], c) == ""
  {
  }

  /** Removing a character leaves alone a string without it. */
  lemma RemoveCharAbsent(s: string, c: char)
    requires forall i :: 0 <= i < |s| ==> s[i] != c
    ensures RemoveChar(s, c) == s
  {
  }

  /** A character other than the one removed survives the removal. */
  lemma {:induction false} KeptByRemoveChar(s: string, c: char, i: int)
    requires 0 <= i < |s| && s[i] != c
    ensures 0 < |RemoveChar(s, c)|
    decreases |s|
  {
    if i > 0 && s[0] == c {
      KeptByRemoveChar(s[1..], c, i - 1);
    }
  }

  /** Removing the '.' from a string of digits and '.' leaves digits only. */
  lemma {:induction false} DigitsAfterRemovingDots(s: string)
    requires forall i :: 0 <= i < |s| ==> IsDigit(s[i]) || s[i] == '.'
    ensures AllDigits(RemoveChar(s, '.'))
    decreases |s|
  {
    if 0 < |s| {
      DigitsAfterRemovingDots(s[1..]);
    }
  }

  /** Removing a character distributes over concatenation. */
  lemma {:induction false} RemoveCharAppend(a: string, b: string, c: char)
    ensures RemoveChar(a + b, c) == RemoveChar(a, c) + RemoveChar(b, c)
    decreases |a|
  {
    if |a| == 0 {
      assert a + b == b;
    } else {
      assert (a + b)[1..] == a[1..] + b;
      RemoveCharAppend(a[1..], b, c);
    }
  }

  /* ---------------- Trim ---------------- */

  /** The characters `String.prototype.trim` removes: white space and line terminators. */
  predicate IsWhitespace(c: char)
  {
    || c == ' ' || c == '\t' || c == '\n' || c == '\r' || c == '\U{000B}' || c == '\U{000C}'
    || c == '\U{00A0}' || c == '\U{1680}' || ('\U{2000}' <= c <= '\U{200A}')
    || c == '\U{2028}' || c == '\U{2029}' || c == '\U{202F}' || c == '\U{205F}'
    || c == '\U{3000}' || c == '\U{FEFF}'
  }

  /** `s` with its leading white space removed. */
  function TrimStart(s: string): (r: string)
    ensures |r| <= |s|
    ensures r == s[|s| - |r|..]
    ensures forall i :: 0 <= i < |s| - |r| ==> IsWhitespace(s[i])
    ensures |r| > 0 ==> !IsWhitespace(r[0])
  {
    if |s| > 0 && IsWhitespace(s[0]) then TrimStart(s[1..]) else s
  }

  /** `s` with its trailing white space removed. */
  function TrimEnd(s: string): (r: string)
    ensures |r| <= |s|
    ensures r == s[..|r|]
    ensures forall i :: |r| <= i < |s| ==> IsWhitespace(s[i])
    ensures |r| > 0 ==> !IsWhitespace(r[|r| - 1])
  {
    if |s| > 0 && IsWhitespace(s[|s| - 1]) then TrimEnd(s[..|s| - 1]) else s
  }

  /** `s.trim()`. */
  function Trim(s: string): string
  {
    TrimEnd(TrimStart(s))
  }

  /** Trimming leaves alone a string that neither starts nor ends with white space. */
  lemma TrimUnchanged(s: string)
    requires |s| > 0 && !IsWhitespace(s[0]) && !IsWhitespace(s[|s| - 1])
    ensures Trim(s) == s
  {
  }

  /* ---------------- Decimal digits ---------------- */

  predicate IsDigit(c: char)
  {
    '0' <= c <= '9'
  }

  predicate AllDigits(s: string)
  {
    forall i :: 0 <= i < |s| ==> IsDigit(s[i])
  }

  function DigitValue(c: char): (d: nat)
    requires IsDigit(c)
    ensures d < 10
  {
    c as int - '0' as int
  }

  function DigitChar(d: nat): (c: char)
    requires d < 10
    ensures IsDigit(c) && DigitValue(c) == d
  {
    ('0' as int + d) as char
  }

  function Pow10(k: nat): (p: nat)
    ensures p >= 1
  {
    if k == 0 then 1 else 10 * Pow10(k - 1)
  }

  /** The value of a string of decimal digits, most significant first; "" is 0. */
  function DigitsValue(s: string): nat
    requires AllDigits(s)
  {
    if |s| == 0 then 0 else DigitsValue(s[..|s| - 1]) * 10 + DigitValue(s[|s| - 1])
  }

  /** The value of two digit strings written one after the other. */
  lemma {:induction false} DigitsValueAppend(a: string, b: string)
    requires AllDigits(a) && AllDigits(b)
    ensures AllDigits(a + b)
    ensures DigitsValue(a + b) == DigitsValue(a) * Pow10(|b|) + DigitsValue(b)
    decreases |b|
  {
    if |b| == 0 {
      assert a + b == a;
    } else {
      var b' := b[..|b| - 1];
      assert (a + b)[..|a + b| - 1] == a + b';
      assert (a + b)[|a + b| - 1] == b[|b| - 1];
      DigitsValueAppend(a, b');
      ShiftDecimal(DigitsValue(a), Pow10(|b'|), DigitsValue(b'), DigitValue(b[|b| - 1]));
    }
  }

  /** Appending a digit to the lower part of `x * p + y` multiplies the whole by ten. */
  lemma ShiftDecimal(x: int, p: int, y: int, d: int)
    ensures (x * p + y) * 10 + d == x * (p * 10) + (y * 10 + d)
  {
  }
}

=== FILE: wrappers.dfy ===
/** Failure-carrying datatypes shared by the model. */
module Wrappers {

  /** A value that may be missing. */
  datatype Option<+T> = None | Some(value: T)

  /** Either a value or the error that stopped the computation. */
  datatype Result<+T, +E> = Success(value: T) | Failure(error: E)
}
